=== FILE: README.md ===
# Plan X lecture portal: a Dafny model of its client core

Plan X is a browser portal for medical lectures. Signed-in users browse lectures
grouped by subject, search them, and continue videos they have started.
Administrators manage subjects, lectures and accounts. This project models the
portal's client-side core in Dafny and proves properties of it:

- **Remote data gateway** (`ApiService`). It covers:
  - the form each write sends, described by what the backend reads back from it;
  - the check on POST replies;
  - the stable sort of subjects by number, done in place on an array;
  - the decoding of each account's `watched` record.
- **Session store** (`AuthContext.AuthStore`). It holds the signed-in account, the loading flag and the copy kept in browser storage. It covers:
  - login and signup, which strip the password;
  - logout;
  - the optimistic profile update, which goes back to the old account when the backend rejects it.
- **Shared data cache** (`DataContext`). A refresh replaces all three collections only when every fetch succeeds. Otherwise it keeps the old collections and records an error.
- **Route guard** (`ProtectedRoute`). It decides between waiting, redirecting and rendering. It also covers where the login page sends the user afterwards.
- **Subject administration** (`SubjectManager`). It covers:
  - the guard on adding a subject;
  - moving a subject by one place, which swaps two slots of an array copy, renumbers every subject by position and sends one update per subject.
- **Home page selectors** (`HomePage`). They cover:
  - the case-insensitive search and the subject filter;
  - the subjects shown;
  - one section per subject, with empty sections skipped.
- **Continue-watching row** (`ContinueWatching`). It lists the in-progress lectures, most advanced first, at most four.
- **Profile page** (`ProfilePage`). It covers:
  - the name field shown without the "Dr. " title;
  - the profile save;
  - the password change, with its checks and notices.
- **Archive upload** (`ArchiveService`). It covers:
  - the item name and the file name;
  - the PUT address, its headers and the media type;
  - progress percentages;
  - how the request's outcome becomes the public download address or an error.

Shared vocabulary is in `Basics`:

- Option and Result types;
- the first-match search behind `Array.find`;
- `Array.filter` and `slice`;
- `includes` and `trim`, using ECMAScript whitespace;
- decimal numerals.

`Types` holds the records, and `Sorting` holds the stable sort.

Everything the browser or the backend supplies enters as a parameter:

- a reply from the backend;
- the outcome of a POST (`Status`), which is what `ApiService.PostStatus` makes of postData's promise;
- the content of browser storage (`Slot`);
- `JSON.parse` and `JSON.stringify` of the watch record (`decode` and `encode`); `decode` gives the parsed record or the error `JSON.parse` throws;
- `toLowerCase` (`lower`);
- `Date.now()` (`now`);
- the first stock avatar (`defaultAvatar`).

A method that waits for several replies takes them all as arguments. A class models a component or provider whose state the source updates, with one field per piece of state.

## Model

| member | source | states |
|---|---|---|
| Basics.FindFirst | contexts/AuthContext.tsx:39 | `find` picks the first element that passes the test, and finds nothing exactly when no element passes |
| Basics.Filter | pages/HomePage.tsx:14-19 | `filter` keeps only elements that pass, and keeps every element that passes |
| Basics.FilterKeepsOrder | pages/HomePage.tsx:14-19 | `filter` keeps the elements it keeps in their original order |
| Basics.FilterCounts | pages/HomePage.tsx:14-19 | `filter` keeps each passing element exactly as often as it occurs, and no failing element |
| Basics.Take | components/home/ContinueWatching.tsx:28 | `slice(0, n)` is a prefix of exactly n elements, or the whole list when it has n or fewer |
| Basics.TrimEmptyIffBlank | components/admin/SubjectManager.tsx:12 | `trim()` gives the empty string exactly for text that is all whitespace |
| Basics.IntToStringRoundTrip | services/apiService.ts:74 | a subject number rendered with `toString()` reads back as the same integer |
| Types.Merge | contexts/AuthContext.tsx:94 | the empty patch gives the account back; a patch giving all seven fields gives exactly the patch's values; the result has no password exactly when neither side has one |
| Types.WithoutPassword | contexts/AuthContext.tsx:41-42 | the copy has no password and agrees with the account on every other field |
| Types.MergeProperties | contexts/AuthContext.tsx:94 | the spread merge gives each of the seven fields the patch's value when the patch gives it and keeps the account's value otherwise; merging the same patch twice equals merging once; the empty patch changes nothing |
| Sorting.InsertPermutation | services/apiService.ts:59 | one insertion step adds exactly the inserted element |
| Sorting.InsertSorted | services/apiService.ts:59 | one insertion step keeps a sorted list sorted |
| Sorting.SortByPermutation | services/apiService.ts:59 | sorting by number neither adds nor loses a subject |
| Sorting.SortBySorted | services/apiService.ts:59 | the sorted list ascends by number |
| Sorting.SortByOfSorted | services/apiService.ts:59 | a list already in order comes back unchanged |
| Sorting.InsertKeepsTies | services/apiService.ts:59 | among the elements sharing a key, one insertion step puts the new element after all of them |
| Sorting.SortByStable | services/apiService.ts:59 | the sort is stable: for every key, the elements with that key come out in the order they went in |
| Sorting.SortByIdempotent | services/apiService.ts:59 | sorting the sorted list again changes nothing |
| Sorting.InsertInPlace | services/apiService.ts:59 | shifting the larger elements right in the array and dropping the new one in performs one insertion step |
| Sorting.SortInPlace | services/apiService.ts:59 | the in-place sort of the array leaves exactly the stable sort of its old contents |
| ApiService.Append | services/apiService.ts:26 | appending a field makes its value readable unless the name was already set |
| ApiService.AppendFirstWins | services/apiService.ts:110-118 | a later append never overrides a name already present; a name not yet present gets the appended value |
| ApiService.PostReply | services/apiService.ts:6-15 | a reply that is not ok becomes the error "Network response was not ok"; an ok reply gives what `response.json()` makes of the body, which is the parse error for a body that is not JSON |
| ApiService.PostStatus | services/apiService.ts:6-15 | a fetch that throws fails with its own error; a reply succeeds exactly when it is ok and its body parses; a reply that is not ok fails with "Network response was not ok", and an ok reply whose body does not parse fails with the parse error |
| ApiService.EveryStatusIsPostStatus | services/apiService.ts:6-15 | every success and every failure an operation is given is an outcome postData can produce, including the failure of an ok reply whose body does not parse |
| ApiService.CreateResource | services/apiService.ts:24-33 | the form carries `action=create` and the five content fields, and no id |
| ApiService.UpdateResource | services/apiService.ts:35-45 | the form carries `action=update`, the id and the five content fields |
| ApiService.DeleteResource | services/apiService.ts:47-52 | the form carries only `action=delete` and the id |
| ApiService.GetSubjects | services/apiService.ts:56-60 | the subjects come back as a permutation of the reply, ascending by number, in stable order |
| ApiService.AddSubject | services/apiService.ts:62-67 | the form carries only `action=create` and the name |
| ApiService.UpdateSubject | services/apiService.ts:69-76 | the form carries the id, the name and the number; the backend parses the number back to the subject's number |
| ApiService.DeleteSubject | services/apiService.ts:78-83 | the form carries only `action=delete` and the id |
| ApiService.GetUsers | services/apiService.ts:87-95 | every account keeps its fields; its `watched` record is decoded, or is empty when it is missing or empty text; one unparsable record fails the whole read, with the parse error of the first such record |
| ApiService.CreateUser | services/apiService.ts:97-107 | the form carries every field of the new account, the role under its backend name, and `watched={}` |
| ApiService.AppendGiven | services/apiService.ts:113-118 | a guarded append sets the name exactly when the value is given |
| ApiService.UpdateUser | services/apiService.ts:109-120 | the form carries the action and the id; each other field is present exactly when it is given and truthy |
| ApiService.DeleteUser | services/apiService.ts:122-127 | the form carries only `action=delete` and the id |
| AuthContext.FindAccount | contexts/AuthContext.tsx:39-42 | login picks the first account with this email and exactly this password, without its password; it finds nothing exactly when no account matches |
| AuthContext.FindByEmail | contexts/AuthContext.tsx:70-74 | signup picks the first account with this email, without its password; it finds nothing exactly when no account has the email |
| AuthContext.CompletionAsWritten | contexts/AuthContext.tsx:98-105 | as written, the promise of updateUserContext always resolves |
| AuthContext.Completion | contexts/AuthContext.tsx:98-105 | corrected, the promise rejects exactly when a session exists and updateUser fails, and it rejects with updateUser's error |
| AuthContext.AuthStore.constructor | contexts/AuthContext.tsx:18-19 | nobody is signed in and loading is on |
| AuthContext.AuthStore.RestoreSession | contexts/AuthContext.tsx:21-33 | a stored account becomes the session; unparsable storage is removed; loading ends |
| AuthContext.AuthStore.Login | contexts/AuthContext.tsx:35-51 | the result is the matching account without its password, which becomes the session and the stored copy; no match changes nothing; a failed read passes its error on; storage stays in step with the session |
| AuthContext.AuthStore.Signup | contexts/AuthContext.tsx:53-83 | a taken email fails before anything is sent; otherwise it creates a standard account titled "Dr. " and signs in with the account found by email on the re-read |
| AuthContext.AuthStore.Logout | contexts/AuthContext.tsx:85-88 | nobody is signed in and nothing is stored |
| AuthContext.AuthStore.UpdateUserContext | contexts/AuthContext.tsx:90-106 | the session and the stored copy take the merged account; both go back to the previous account when updateUser fails; the request carries the old id and the given fields; the returned promise always resolves, since the failure is caught and not thrown again |
| DataContext.Failures | contexts/DataContext.tsx:28-37 | there is no error message exactly when all three fetches succeed |
| DataContext.Settled | contexts/DataContext.tsx:27-41 | all three lists are replaced only when every fetch succeeds, with the subjects sorted; otherwise the lists are kept and the error comes from a failing fetch; loading ends either way |
| DataContext.Refreshed | contexts/DataContext.tsx:24-42 | after a refresh the error is unset exactly when every fetch succeeded |
| DataContext.RefreshIdempotent | contexts/DataContext.tsx:24-42 | a second successful refresh against the same data leaves the state the first one left |
| DataContext.DataCache.constructor | contexts/DataContext.tsx:18-22 | the lists are empty, loading is on, and there is no error |
| DataContext.DataCache.BeginRefresh | contexts/DataContext.tsx:25-26 | loading goes on and the error is cleared |
| DataContext.DataCache.CompleteRefresh | contexts/DataContext.tsx:27-41 | the new state is the settled state |
| DataContext.DataCache.Refresh | contexts/DataContext.tsx:24-42 | the new state is the refreshed state |
| SubjectManager.Swapped | components/admin/SubjectManager.tsx:40 | the swap keeps the length |
| SubjectManager.Renumbered | components/admin/SubjectManager.tsx:43 | every subject is numbered by its position, and nothing else changes |
| SubjectManager.Reordered | components/admin/SubjectManager.tsx:35-43 | there is no new order exactly when the target position is off the list; otherwise the new order has the same length and numbers every subject by its position |
| SubjectManager.MoveAtEdgeIsNoOp | components/admin/SubjectManager.tsx:35-37 | moving the first subject up or the last subject down does nothing |
| SubjectManager.MoveExchanges | components/admin/SubjectManager.tsx:35-43 | a move exchanges exactly the two positions, keeps every other subject in place and numbers all of them by position |
| SubjectManager.MoveNumbersDistinct | components/admin/SubjectManager.tsx:43 | after a move no two subjects share a number |
| SubjectManager.MoveKeepsSubjects | components/admin/SubjectManager.tsx:40-43 | a move neither adds nor loses a subject (by id and name, with multiplicity) |
| SubjectManager.SwapKeepsMultiset | components/admin/SubjectManager.tsx:40 | a swap is a permutation |
| SubjectManager.UpThenDownRestores | components/admin/SubjectManager.tsx:33-43 | moving a subject up and then back down restores the order, and restores the list itself when it was numbered by position |
| SubjectManager.HandleMove | components/admin/SubjectManager.tsx:33-52 | nothing is sent for a move off the edge; otherwise one update goes out per subject, in the new order, each with its new position, and the data refreshes only if all of them succeed |
| SubjectManager.CanAddIffNotBlank | components/admin/SubjectManager.tsx:12 | adding is refused exactly for an empty or whitespace-only name |
| SubjectManager.SubjectForm.constructor | components/admin/SubjectManager.tsx:9 | the name field starts empty |
| SubjectManager.SubjectForm.HandleAddSubject | components/admin/SubjectManager.tsx:11-20 | a blank name sends nothing; otherwise the name is sent untrimmed, and the field is cleared only after a successful add |
| HomePage.FilterResources | pages/HomePage.tsx:13-20 | a lecture is listed exactly when its title or subject contains the search text ignoring case and the subject choice matches; each listed lecture appears as often as in the input; order is kept |
| HomePage.SubjectsToDisplay | pages/HomePage.tsx:22-27 | "All" shows every subject; any other choice shows exactly the subjects with that name, each as often as in the input, in order |
| HomePage.SectionResources | pages/HomePage.tsx:64 | a section holds exactly the listed lectures filed under the subject's name, each as often as it is listed, in order |
| HomePage.Sections | pages/HomePage.tsx:63-73 | the sections' subjects are exactly the displayed subjects that have lectures, one section each and in display order; every section is non-empty and holds that subject's lectures |
| HomePage.EmptySearchShowsAll | pages/HomePage.tsx:13-20 | with no search text and "All" chosen, every lecture is listed |
| HomePage.SearchIgnoresCase | pages/HomePage.tsx:15-16 | search texts that lower-case alike list the same lectures |
| HomePage.SelectionIsExact | pages/HomePage.tsx:17 | under a particular subject choice, only lectures with exactly that subject name are listed |
| HomePage.OrphansAppearNowhere | pages/HomePage.tsx:63-73 | a lecture whose subject name matches no displayed subject appears in no section |
| HomePage.AllOrphansShowNothing | pages/HomePage.tsx:63-76 | when every listed lecture is orphaned, the page shows no section and no "No lectures found." either |
| ProtectedRoute.Guard | components/common/ProtectedRoute.tsx:13-31 | the guard waits while loading; it sends a missing session to /login with the current location; it sends a role outside the list home; otherwise it renders; every redirect replaces the history entry |
| ProtectedRoute.LoginDestination | pages/LoginPage.tsx:15 | the user goes back to the remembered path, or to "/" when there is none; the destination is never empty |
| ProtectedRoute.LoginReturnsToRequestedPage | components/common/ProtectedRoute.tsx:21-23 | a user turned away for want of a session returns, after login, to the page first requested |
| ProtectedRoute.AdminRouteAdmitsAdmins | App.tsx:35 | the admin route renders exactly for admins and super admins, the same test as the header's dashboard link; a standard user goes home |
| ProtectedRoute.EmptyRolesAdmitNobody | components/common/ProtectedRoute.tsx:25 | an empty role list admits nobody, while no list admits everyone signed in |
| ContinueWatching.FirstWithId | components/home/ContinueWatching.tsx:18 | the lecture found is the first with the id, and there is none exactly when no lecture has it |
| ContinueWatching.CandidatesInOrder | components/home/ContinueWatching.tsx:17-26 | the candidates are exactly the cards of the watched entries that name an existing lecture and are in progress, one per entry, in the stored order |
| ContinueWatching.Candidates | components/home/ContinueWatching.tsx:17-26 | every candidate comes from a watched entry whose lecture exists and whose progress lies strictly between 5 and 95, and every such entry yields a candidate |
| ContinueWatching.Row | components/home/ContinueWatching.tsx:14-29 | without a session the row is empty; otherwise it holds four cards, or all the candidates when there are four or fewer |
| ContinueWatching.RowEntriesQualify | components/home/ContinueWatching.tsx:17-28 | every card is a watched lecture that is in progress |
| ContinueWatching.RowDescending | components/home/ContinueWatching.tsx:27 | the cards are in non-increasing order of progress |
| ContinueWatching.RowIsTop | components/home/ContinueWatching.tsx:27-28 | no candidate left out of the row has more progress than any card in it |
| ContinueWatching.ShortListShownWhole | components/home/ContinueWatching.tsx:28 | with four candidates or fewer, all of them are shown |
| ContinueWatching.RowShownIff | components/home/ContinueWatching.tsx:31-33 | the section renders exactly when someone is signed in and one of their entries is an in-progress lecture that still exists |
| Basics.IndexOf | pages/ProfilePage.tsx:9 | the first position where the pattern occurs, and -1 exactly when it does not occur |
| ProfilePage.ReplaceFirst | pages/ProfilePage.tsx:9 | `replace` with a string pattern leaves text without the pattern unchanged, and otherwise replaces exactly the first occurrence, wherever it is |
| ProfilePage.InitialName | pages/ProfilePage.tsx:9 | without a session the name field starts empty |
| ProfilePage.InitialAvatar | pages/ProfilePage.tsx:10 | the picker starts with the account's avatar, or with the first stock avatar when there is none |
| ProfilePage.UneditedTitledNameRoundTrips | pages/ProfilePage.tsx:9-30 | a titled name saved without edits is saved unchanged |
| ProfilePage.UneditedUntitledNameGainsTitle | pages/ProfilePage.tsx:9-30 | a name with no title gains "Dr. " when saved without edits |
| ProfilePage.ProfilePatch | pages/ProfilePage.tsx:28-32 | the save's patch carries the id, the titled name and the avatar, and never a password, email, role or watch record |
| ProfilePage.ProfileSaveSends | pages/ProfilePage.tsx:28-33 | the request carries the id, the titled name and the avatar when one is chosen |
| ProfilePage.ProfileNotice | pages/ProfilePage.tsx:33-36 | the page shows the success message exactly when the save resolves and the failure message exactly when it rejects; never both |
| ProfilePage.RejectedSaveReportedAsSuccess | contexts/AuthContext.tsx:98-105 | as written, a save the backend rejects is announced as successful |
| ProfilePage.SaveNoticeMatchesBackend | pages/ProfilePage.tsx:33-36 | corrected, success is announced exactly when the backend accepted the save |
| ProfilePage.PasswordProblem | pages/ProfilePage.tsx:47-54 | a new password is accepted exactly when it has at least 6 characters and matches the confirmation; length is checked first, so a short password is reported as short even when the confirmation differs |
| ProfilePage.ProfileForm.constructor | pages/ProfilePage.tsx:9-15 | the fields start from the account; the other fields are empty and nothing is loading |
| ProfilePage.ProfileForm.HandleProfileUpdate | pages/ProfilePage.tsx:21-40 | the patch goes through updateUserContext; the session follows the backend's answer; the notice follows how the save settles, so a save the backend rejects keeps the old account yet shows the success message; loading ends |
| ProfilePage.ProfileForm.HandlePasswordChange | pages/ProfilePage.tsx:42-67 | a rejected password sends nothing and shows the reason; an accepted one sends only the id and the password, and clears both fields on success |
| ArchiveService.Sanitize | services/archiveService.ts:7 | the file name contains no whitespace and is no longer than the original; with SanitizeCleanPrefix and SanitizeRun its value on every name is fixed |
| ArchiveService.SanitizeKeepsClean | services/archiveService.ts:7 | a name without whitespace is kept unchanged |
| ArchiveService.SanitizeIdempotent | services/archiveService.ts:7 | sanitizing twice is the same as sanitizing once |
| ArchiveService.SanitizeRun | services/archiveService.ts:7 | a maximal run of whitespace at the start of a name, however long, becomes a single underscore before the sanitized rest |
| ArchiveService.SanitizeCleanPrefix | services/archiveService.ts:7 | a part without whitespace at the start of a name is kept as it is, followed by the sanitized rest |
| ArchiveService.SanitizeRunAt | services/archiveService.ts:7 | a maximal run of whitespace at any position, after a part without whitespace, becomes one underscore between that part and the sanitized rest |
| ArchiveService.SanitizeKeepsVisible | services/archiveService.ts:7 | every character that is neither whitespace nor an underscore survives, in order |
| ArchiveService.TypePart | services/archiveService.ts:6 | the type part is the MIME type up to its first slash, and contains no slash |
| ArchiveService.TypePartStopsAtSlash | services/archiveService.ts:6 | for `a/b`, where a contains no slash, the type part is a |
| ArchiveService.ItemName | services/archiveService.ts:6 | the item name starts "plan-x-" and contains no slash, so it is one path segment |
| ArchiveService.ItemNameInjective | services/archiveService.ts:6 | two uploads share an item name only if their type parts and their start times agree |
| ArchiveService.PutUrl | services/archiveService.ts:8 | the upload address is the S3 endpoint followed by the item name, a slash and the file name, each recoverable at its position |
| ArchiveService.PublicUrl | services/archiveService.ts:31 | the download address is the archive's download path followed by the item name, a slash and the file name, each recoverable at its position |
| ArchiveService.PublicUrlMatchesPutUrl | services/archiveService.ts:31 | the download address names the same item and file as the upload address |
| ArchiveService.MediaType | services/archiveService.ts:19 | the media type is "movies" exactly for video types, and "texts" otherwise |
| ArchiveService.MoviesAreVideoItems | services/archiveService.ts:6-19 | a "movies" upload lands in an item named `plan-x-video-<time>` |
| ArchiveService.PlanUpload | services/archiveService.ts:6-20 | the item is named by ItemName from the type and the clock, the file by Sanitize of its name; the PUT goes to that item and file; the file name has no whitespace and keeps the visible characters; the content type is the file's and the media type is MediaType of it; buckets are made on demand in the opensource collection |
| ArchiveService.Percentage | services/archiveService.ts:24 | the reported share is `loaded * 100 / total` rounded half up, and never negative |
| ArchiveService.PercentageBounds | services/archiveService.ts:24 | within the total the share is at most 100; it is 100 at the end and 0 at the start |
| ArchiveService.ProgressReport | services/archiveService.ts:22-27 | a share is reported exactly when the length is computable |
| ArchiveService.Settle | services/archiveService.ts:29-40 | a 2xx status resolves to the download address; any other status rejects with the status and the body; a network error rejects with its own message |
| ArchiveService.SuccessPointsAtUpload | services/archiveService.ts:29-32 | a successful upload resolves to the download address of the item and file it uploaded |

## Left out

- handleDeleteSubject (components/admin/SubjectManager.tsx:22-31): its browser `confirm` dialog is interactive. The request it sends is `ApiService.DeleteSubject`.
- getResources (services/apiService.ts:18-22) and the fetches inside getSubjects and getUsers: JSON decoding of the reply is not modelled. The decoded lists enter as `DataContext.Replies`.
- The transport: the network, `fetch`, `XMLHttpRequest` and its Authorization header with the archive credentials. constants.ts is not part of this model, so endpoint addresses, credentials and the stock avatars enter as parameters or are left out.
- `JSON.parse`, `JSON.stringify`, `toLowerCase` and `Date.now()` are parameters (`decode`, `encode`, `lower`, `now`). Their own behaviour is not modelled.
- `HomePage.EmptySearchShowsAll` assumes that lower-casing the empty text gives the empty text.
- Concurrency: two updateUserContext calls in flight, where one reverts over the other, are not modelled, and neither is the order in which React applies state updates. Each operation runs to completion given the replies it waits for.
- DataContext.Settled: when several fetches fail, the model promises only that the error comes from one of them, not that it is the first to reject, which is what `Promise.all` reports.
- SubjectManager.HandleMove: the per-subject updates are sent as one batch with a joint outcome (`updates`). Which of them succeeded when the batch fails is not modelled.
- Watch progress and subject numbers are integers. The source's numbers are floating point.
- Progress is read as a percentage. The source stores a playback time in seconds (types.ts:15 `{ resourceId: timestamp }`; pages/WatchPage.tsx:32,42-45 store `currentTime`), but components/home/ContinueWatching.tsx:20-21 tests it against 5 and 95 as a percentage. The model follows that test.
- ContinueWatching.Row: the case where the signed-in account has no `watched` map at all is not modelled, because the record always carries one (possibly empty).
- String lengths count Unicode scalar values rather than UTF-16 code units. This affects the 6-character password check only for characters outside the Basic Multilingual Plane.
- ArchiveService.Percentage, ArchiveService.ProgressReport: a computable length with a zero total is excluded by their requires. The NaN that services/archiveService.ts:24 would report for an empty file is not modelled.
- The order of fields on the wire is kept in `ApiService.Form`. The contracts describe each form by what the backend reads from it.
- The video watch page's debounced progress saving, the AI tools, the PDF text extraction and every layout-only component are outside this core.
- The admin panels other than subject reordering (resource and user management) only call the gateway methods modelled here.

## Findings

| source | as written | input that shows it | evidently intended | confidence | as-written member | corrected member |
|---|---|---|---|---|---|---|
| contexts/AuthContext.tsx:98-105 | updateUserContext catches the failure of updateUser, reverts the session and resolves, so the profile page's `catch` (pages/ProfilePage.tsx:35-36) never runs and "Profile updated successfully!" is shown | a profile save whose updateUser POST gets a reply that is not ok | the page shows "Failed to update profile." when the backend rejects the save, which is what its own failure branch is for | medium, not executed | ProfilePage.RejectedSaveReportedAsSuccess, over AuthContext.CompletionAsWritten, which AuthContext.AuthStore.UpdateUserContext and ProfilePage.ProfileForm.HandleProfileUpdate follow | AuthContext.Completion, proved in ProfilePage.SaveNoticeMatchesBackend |

=== FILE: api_service.dfy ===
/** The remote data gateway: how each write is marshalled into a form of
    (key, value) fields, how POST replies are checked, how the subject list is
    ordered and how account records are decoded on read. The transport itself
    is not modelled: each reply enters as a parameter. */
module ApiService {
  import opened Basics
  import opened Types
  import Sorting

  /** The three endpoint families of the backend. */
  datatype Endpoint = ResourcesEndpoint | SubjectsEndpoint | UsersEndpoint

  /** The field names the backend reads. */
  datatype FieldName =
    | ActionField | IdField | TitleField | SubjectNameField | VideoLinkField | PdfLinkField | ImageUrlField
    | NumberField | NameField | EmailField | PasswordField | RoleField | AvatarField | WatchedField

  /** The name a field carries on the wire. */
  function WireName(k: FieldName): string {
    match k
    case ActionField => "action"
    case IdField => "id"
    case TitleField => "title"
    case SubjectNameField => "Subject_Name"
    case VideoLinkField => "video_link"
    case PdfLinkField => "pdf_link"
    case ImageUrlField => "image_url"
    case NumberField => "number"
    case NameField => "name"
    case EmailField => "email"
    case PasswordField => "password"
    case RoleField => "role"
    case AvatarField => "avatar"
    case WatchedField => "watched"
  }

  datatype Field = Field(key: FieldName, value: string)

  /** A `FormData` body: its fields in the order they were appended, the last one outermost. */
  datatype Form = NoFields | Appended(before: Form, last: Field)

  /** A POST of a form to an endpoint. */
  datatype Request = Post(endpoint: Endpoint, form: Form)

  /** What the backend reads from a form: for each field name, the value it was
      first appended with, or None when it was never appended. */
  datatype Reading = Reading(
    action: Option<string>, id: Option<string>, title: Option<string>, subjectName: Option<string>,
    videoLink: Option<string>, pdfLink: Option<string>, imageUrl: Option<string>, number: Option<string>,
    name: Option<string>, email: Option<string>, password: Option<string>, role: Option<string>,
    avatar: Option<string>, watched: Option<string>)

  /** The reading of an empty form. */
  const Nothing := Reading(None, None, None, None, None, None, None, None, None, None, None, None, None, None)

  function Lookup(r: Reading, key: FieldName): Option<string> {
    match key
    case ActionField => r.action
    case IdField => r.id
    case TitleField => r.title
    case SubjectNameField => r.subjectName
    case VideoLinkField => r.videoLink
    case PdfLinkField => r.pdfLink
    case ImageUrlField => r.imageUrl
    case NumberField => r.number
    case NameField => r.name
    case EmailField => r.email
    case PasswordField => r.password
    case RoleField => r.role
    case AvatarField => r.avatar
    case WatchedField => r.watched
  }

  /** r with the entry for key replaced by o. */
  function Set(r: Reading, key: FieldName, o: Option<string>): Reading {
    match key
    case ActionField => r.(action := o)
    case IdField => r.(id := o)
    case TitleField => r.(title := o)
    case SubjectNameField => r.(subjectName := o)
    case VideoLinkField => r.(videoLink := o)
    case PdfLinkField => r.(pdfLink := o)
    case ImageUrlField => r.(imageUrl := o)
    case NumberField => r.(number := o)
    case NameField => r.(name := o)
    case EmailField => r.(email := o)
    case PasswordField => r.(password := o)
    case RoleField => r.(role := o)
    case AvatarField => r.(avatar := o)
    case WatchedField => r.(watched := o)
  }

  /** One more field read: a name that already has a value keeps it. */
  function Put(r: Reading, key: FieldName, value: string): Reading {
    if Lookup(r, key).Some? then r else Set(r, key, Some(value))
  }

  function Read(f: Form): Reading {
    match f
    case NoFields => Nothing
    case Appended(before, last) => Put(Read(before), last.key, last.value)
  }

  /** `FormData.get` as the backend applies it: the first value appended under key. */
  function Get(f: Form, key: FieldName): Option<string> {
    Lookup(Read(f), key)
  }

  /** `FormData.append`: adds one field after the others. */
  function Append(f: Form, key: FieldName, value: string): (r: Form)
    ensures Read(r) == Put(Read(f), key, value)
  {
    Appended(f, Field(key, value))
  }

  /** Appending never changes the value of a name that already had one, and gives
      a name that had none the appended value. */
  lemma AppendFirstWins(f: Form, key: FieldName, value: string, k: FieldName)
    ensures Get(Append(f, key, value), k) == if Get(f, k).Some? then Get(f, k) else if k == key then Some(value) else None
  {
  }

  /** The value a JavaScript truthiness test lets through: a given, non-empty string. */
  function Truthy(o: Option<string>): Option<string> {
    if o.Some? && o.value != "" then o else None
  }

  const NotOkMessage := "Network response was not ok"

  /** postData: a reply whose status is not ok becomes an error; otherwise the
      result is what `response.json()` makes of the body, which is the parse error
      when the body is not JSON. */
  function PostReply<T>(ok: bool, body: Result<T>): (r: Result<T>)
    ensures r.Ok? <==> ok && body.Ok?
    ensures !ok ==> r == Err(NotOkMessage)
    ensures ok && body.Err? ==> r == Err(body.message)
    ensures r.Ok? ==> r.value == body.value
  {
    if !ok then Err(NotOkMessage) else body
  }

  /** What postData's promise tells a caller that ignores the reply body: the error
      fetch itself threw (fetched is Err), or the verdict of PostReply on the reply's
      status and parsed body. */
  function PostStatus<T>(fetched: Result<(bool, Result<T>)>): (s: Status)
    ensures fetched.Err? ==> s == Failed(fetched.message)
    ensures fetched.Ok? ==> (s.Succeeded? <==> fetched.value.0 && fetched.value.1.Ok?)
    ensures fetched.Ok? && !fetched.value.0 ==> s == Failed(NotOkMessage)
    ensures fetched.Ok? && fetched.value.0 && fetched.value.1.Err? ==> s == Failed(fetched.value.1.message)
  {
    match fetched
    case Err(m) => Failed(m)
    case Ok((ok, body)) => if PostReply(ok, body).Ok? then Succeeded else Failed(PostReply(ok, body).message)
  }

  /** Every outcome a write's caller is given is one postData can produce: success
      from an ok reply with a JSON body, and any failure from a fetch that threw it
      or from an ok reply whose body does not parse. */
  lemma EveryStatusIsPostStatus<T>(s: Status, body: T)
    ensures s.Succeeded? ==> PostStatus(Ok((true, Ok(body)))) == s
    ensures s.Failed? ==> PostStatus<T>(Err(s.message)) == s
    ensures s.Failed? ==> PostStatus<T>(Ok((true, Err(s.message)))) == s
    ensures PostStatus(Ok((false, Ok(body)))) == Failed(NotOkMessage)
  {
  }

  // ---------------------------------------------------------------------------
  // Resources

  /** createResource: the five content fields and `action=create`; never an id. */
  method CreateResource(r: Resource) returns (req: Request)
    ensures req.endpoint == ResourcesEndpoint
    ensures Read(req.form) == Nothing.(
              action := Some("create"), title := Some(r.title), subjectName := Some(r.subjectName),
              videoLink := Some(r.videoLink), pdfLink := Some(r.pdfLink), imageUrl := Some(r.imageUrl))
  {
    var form := Append(NoFields, ActionField, "create");
    form := Append(form, TitleField, r.title);
    form := Append(form, SubjectNameField, r.subjectName);
    form := Append(form, VideoLinkField, r.videoLink);
    form := Append(form, PdfLinkField, r.pdfLink);
    form := Append(form, ImageUrlField, r.imageUrl);
    req := Post(ResourcesEndpoint, form);
  }

  /** updateResource: the same fields as createResource with `action=update`, plus the id. */
  method UpdateResource(r: Resource) returns (req: Request)
    ensures req.endpoint == ResourcesEndpoint
    ensures Read(req.form) == Nothing.(
              action := Some("update"), id := Some(r.id), title := Some(r.title), subjectName := Some(r.subjectName),
              videoLink := Some(r.videoLink), pdfLink := Some(r.pdfLink), imageUrl := Some(r.imageUrl))
  {
    var form := Append(NoFields, ActionField, "update");
    form := Append(form, IdField, r.id);
    form := Append(form, TitleField, r.title);
    form := Append(form, SubjectNameField, r.subjectName);
    form := Append(form, VideoLinkField, r.videoLink);
    form := Append(form, PdfLinkField, r.pdfLink);
    form := Append(form, ImageUrlField, r.imageUrl);
    req := Post(ResourcesEndpoint, form);
  }

  /** The form every delete sends: the action and the id, nothing else. */
  predicate DeletesId(f: Form, id: string) {
    Read(f) == Nothing.(action := Some("delete"), id := Some(id))
  }

  method DeleteResource(id: string) returns (req: Request)
    ensures req.endpoint == ResourcesEndpoint && DeletesId(req.form, id)
  {
    var form := Append(NoFields, ActionField, "delete");
    form := Append(form, IdField, id);
    req := Post(ResourcesEndpoint, form);
  }

  // ---------------------------------------------------------------------------
  // Subjects

  /** The ordering key getSubjects sorts by. */
  function ByNumber(s: Subject): int {
    s.number
  }

  /** getSubjects: the fetched list sorted in place, stably, by ascending number. */
  method GetSubjects(reply: seq<Subject>) returns (subjects: seq<Subject>)
    ensures subjects == Sorting.SortBy(reply, ByNumber)
    ensures multiset(subjects) == multiset(reply)
    ensures Sorting.SortedBy(subjects, ByNumber)
  {
    var a := new Subject[|reply|](i requires 0 <= i < |reply| => reply[i]);
    assert a[..] == reply;
    Sorting.SortInPlace(a, ByNumber);
    subjects := a[..];
    Sorting.SortByPermutation(reply, ByNumber);
    Sorting.SortBySorted(reply, ByNumber);
  }

  /** addSubject: only the action and the name; the backend assigns id and number. */
  method AddSubject(subjectName: string) returns (req: Request)
    ensures req.endpoint == SubjectsEndpoint
    ensures Read(req.form) == Nothing.(action := Some("create"), subjectName := Some(subjectName))
  {
    var form := Append(NoFields, ActionField, "create");
    form := Append(form, SubjectNameField, subjectName);
    req := Post(SubjectsEndpoint, form);
  }

  /** The form updateSubject sends for s; `number` travels as its decimal numeral. */
  predicate UpdatesSubject(req: Request, s: Subject) {
    && req.endpoint == SubjectsEndpoint
    && Read(req.form) == Nothing.(
         action := Some("update"), id := Some(s.id), subjectName := Some(s.subjectName),
         number := Some(IntToString(s.number)))
  }

  /** updateSubject: besides the fields it sends, the backend reads back exactly s.number. */
  method UpdateSubject(s: Subject) returns (req: Request)
    ensures UpdatesSubject(req, s)
    ensures Get(req.form, NumberField).Some? && ParseInt(Get(req.form, NumberField).value) == Some(s.number)
  {
    var form := Append(NoFields, ActionField, "update");
    form := Append(form, IdField, s.id);
    form := Append(form, SubjectNameField, s.subjectName);
    form := Append(form, NumberField, IntToString(s.number));
    req := Post(SubjectsEndpoint, form);
    IntToStringRoundTrip(s.number);
  }

  method DeleteSubject(id: string) returns (req: Request)
    ensures req.endpoint == SubjectsEndpoint && DeletesId(req.form, id)
  {
    var form := Append(NoFields, ActionField, "delete");
    form := Append(form, IdField, id);
    req := Post(SubjectsEndpoint, form);
  }

  // ---------------------------------------------------------------------------
  // Users

  /** The `watched` field as the backend stores it: a JSON text, or some other value. */
  datatype RawWatched = WatchedText(text: string) | WatchedOther

  /** An account record as the backend returns it, before decoding. */
  datatype RawUser = RawUser(
    id: string,
    name: string,
    email: string,
    password: Option<string>,
    role: Role,
    avatar: string,
    watched: RawWatched)

  /** A non-empty text is parsed (decode stands for JSON.parse, with the error it
      throws for unparsable text); the empty text and any non-text value become the
      empty record. */
  function DecodeWatched(w: RawWatched, decode: string -> Result<Watched>): Result<Watched> {
    if w.WatchedText? && w.text != "" then decode(w.text) else Ok([])
  }

  /** u is raw with every field but `watched` kept as it was. */
  predicate KeepsFields(u: User, raw: RawUser) {
    && u.id == raw.id && u.name == raw.name && u.email == raw.email
    && u.password == raw.password && u.role == raw.role && u.avatar == raw.avatar
  }

  /** getUsers: decodes every record's `watched` field; one unparsable text fails the whole read. */
  function GetUsers(raws: seq<RawUser>, decode: string -> Result<Watched>): (r: Result<seq<User>>)
    ensures r.Ok? <==> forall i :: 0 <= i < |raws| ==> DecodeWatched(raws[i].watched, decode).Ok?
    ensures r.Err? ==> exists i :: 0 <= i < |raws| && DecodeWatched(raws[i].watched, decode) == Err(r.message)
                                   && forall j :: 0 <= j < i ==> DecodeWatched(raws[j].watched, decode).Ok?
    ensures r.Ok? ==> |r.value| == |raws|
    ensures r.Ok? ==> forall i :: 0 <= i < |raws| ==>
              KeepsFields(r.value[i], raws[i]) && Ok(r.value[i].watched) == DecodeWatched(raws[i].watched, decode)
  {
    if raws == [] then Ok([])
    else
      var raw := raws[0];
      match DecodeWatched(raw.watched, decode)
      case Err(m) => Err(m)
      case Ok(w) =>
        match GetUsers(raws[1..], decode)
        case Err(m) =>
          var i :| 0 <= i < |raws[1..]| && DecodeWatched(raws[1..][i].watched, decode) == Err(m)
                   && forall j :: 0 <= j < i ==> DecodeWatched(raws[1..][j].watched, decode).Ok?;
          assert DecodeWatched(raws[i + 1].watched, decode) == Err(m);
          assert forall j :: 0 < j < i + 1 ==> raws[j] == raws[1..][j - 1];
          Err(m)
        case Ok(rest) =>
          Ok([User(raw.id, raw.name, raw.email, raw.password, raw.role, raw.avatar, w)] + rest)
  }

  /** createUser: every field of the new account, the role by its backend name and
      an empty watch record; never an id. */
  method CreateUser(name: string, email: string, password: string, role: Role, avatar: string) returns (req: Request)
    ensures req.endpoint == UsersEndpoint
    ensures Read(req.form) == Nothing.(
              action := Some("create"), name := Some(name), email := Some(email), password := Some(password),
              role := Some(RoleName(role)), avatar := Some(avatar), watched := Some("{}"))
  {
    var form := Append(NoFields, ActionField, "create");
    form := Append(form, NameField, name);
    form := Append(form, EmailField, email);
    form := Append(form, PasswordField, password);
    form := Append(form, RoleField, RoleName(role));
    form := Append(form, AvatarField, avatar);
    form := Append(form, WatchedField, "{}");
    req := Post(UsersEndpoint, form);
  }

  /** The form updateUser sends: action and id always, every other field exactly
      when it is given and truthy (encode stands for JSON.stringify; a role and a
      watch record are always truthy when given). */
  predicate UpdatesUser(req: Request, id: string, p: UserPatch, encode: Watched -> string) {
    && req.endpoint == UsersEndpoint
    && Read(req.form) == Nothing.(
         action := Some("update"), id := Some(id),
         name := Truthy(p.name), email := Truthy(p.email), password := Truthy(p.password),
         role := if p.role.Some? then Some(RoleName(p.role.value)) else None,
         avatar := Truthy(p.avatar),
         watched := if p.watched.Some? then Some(encode(p.watched.value)) else None)
  }

  /** `if (value) formData.append(key, value)`, for a key not yet in the form. */
  function AppendGiven(f: Form, key: FieldName, o: Option<string>): (r: Form)
    requires Get(f, key).None?
    ensures Read(r) == Set(Read(f), key, o)
  {
    if o.Some? then Append(f, key, o.value) else f
  }

  /** updateUser: the id is the one the caller passes alongside the changes. */
  method UpdateUser(id: string, p: UserPatch, encode: Watched -> string) returns (req: Request)
    ensures UpdatesUser(req, id, p, encode)
  {
    var form := Append(NoFields, ActionField, "update");
    form := Append(form, IdField, id);
    form := AppendGiven(form, NameField, Truthy(p.name));
    form := AppendGiven(form, EmailField, Truthy(p.email));
    form := AppendGiven(form, PasswordField, Truthy(p.password));
    form := AppendGiven(form, RoleField, if p.role.Some? then Some(RoleName(p.role.value)) else None);
    form := AppendGiven(form, AvatarField, Truthy(p.avatar));
    form := AppendGiven(form, WatchedField, if p.watched.Some? then Some(encode(p.watched.value)) else None);
    req := Post(UsersEndpoint, form);
  }

  method DeleteUser(id: string) returns (req: Request)
    ensures req.endpoint == UsersEndpoint && DeletesId(req.form, id)
  {
    var form := Append(NoFields, ActionField, "delete");
    form := Append(form, IdField, id);
    req := Post(UsersEndpoint, form);
  }
}

=== FILE: archive_service.dfy ===
/** The upload of a lecture file to the Internet Archive: the item and file names,
    the PUT address and headers, the progress reports, and how the request's end
    becomes the public download address or an error. The clock reading enters as
    the parameter `now`; the request itself is not modelled. */
module ArchiveService {
  import opened Basics

  const ItemPrefix := "plan-x-"
  const PutBase := "https://s3.us.archive.org/"
  const PublicBase := "https://archive.org/download/"
  const NetworkErrorMessage := "A network error occurred during the upload."

  /** The file being uploaded: its name and its MIME type. */
  datatype File = File(name: string, mimeType: string)

  // ---------------------------------------------------------------------------
  // File name: `name.replace(/\s+/g, '_')`

  /** Each maximal run of whitespace becomes one underscore; a whitespace character
      followed by another is dropped, the last of a run is replaced. */
  function Sanitize(s: string): (r: string)
    ensures NoWhitespace(r)
    ensures |r| <= |s|
  {
    if s == [] then []
    else if !IsWhitespace(s[0]) then [s[0]] + Sanitize(s[1..])
    else if |s| > 1 && IsWhitespace(s[1]) then Sanitize(s[1..])
    else "_" + Sanitize(s[1..])
  }

  /** A name without whitespace is kept as it is. */
  lemma {:induction false} SanitizeKeepsClean(s: string)
    requires NoWhitespace(s)
    ensures Sanitize(s) == s
  {
    if s != [] {
      SanitizeKeepsClean(s[1..]);
    }
  }

  /** Sanitizing twice is sanitizing once. */
  lemma SanitizeIdempotent(s: string)
    ensures Sanitize(Sanitize(s)) == Sanitize(s)
  {
    SanitizeKeepsClean(Sanitize(s));
  }

  /** A whole run of whitespace, however long, turns into a single underscore. */
  lemma {:induction false} SanitizeRun(w: string, rest: string)
    requires w != [] && AllWhitespace(w)
    requires rest == [] || !IsWhitespace(rest[0])
    ensures Sanitize(w + rest) == "_" + Sanitize(rest)
  {
    assert (w + rest)[1..] == w[1..] + rest;
    if |w| > 1 {
      SanitizeRun(w[1..], rest);
    }
  }

  /** Sanitizing a whitespace-free prefix keeps it and goes on with the rest. */
  lemma {:induction false} SanitizeCleanPrefix(c: string, s: string)
    requires NoWhitespace(c)
    ensures Sanitize(c + s) == c + Sanitize(s)
  {
    if c == [] {
      assert c + s == s;
    } else {
      assert !IsWhitespace(c[0]);
      assert (c + s)[0] == c[0] && (c + s)[1..] == c[1..] + s;
      SanitizeCleanPrefix(c[1..], s);
      assert [c[0]] + (c[1..] + Sanitize(s)) == c + Sanitize(s);
    }
  }

  /** A maximal run of whitespace anywhere in the name, after a whitespace-free
      part c, becomes one underscore between c and the sanitized rest. */
  lemma SanitizeRunAt(c: string, w: string, rest: string)
    requires NoWhitespace(c)
    requires w != [] && AllWhitespace(w)
    requires rest == [] || !IsWhitespace(rest[0])
    ensures Sanitize(c + w + rest) == c + "_" + Sanitize(rest)
  {
    assert c + w + rest == c + (w + rest);
    SanitizeCleanPrefix(c, w + rest);
    SanitizeRun(w, rest);
  }

  /** The characters that are neither whitespace nor an underscore, in order. */
  function Visible(s: string): string {
    if s == [] then []
    else (if IsWhitespace(s[0]) || s[0] == '_' then [] else [s[0]]) + Visible(s[1..])
  }

  /** Sanitizing keeps every other character, in order. */
  lemma {:induction false} SanitizeKeepsVisible(s: string)
    ensures Visible(Sanitize(s)) == Visible(s)
  {
    if s != [] {
      SanitizeKeepsVisible(s[1..]);
      var t := Sanitize(s[1..]);
      if !IsWhitespace(s[0]) {
        assert ([s[0]] + t)[1..] == t;
      } else if !(|s| > 1 && IsWhitespace(s[1])) {
        assert ("_" + t)[1..] == t;
      }
    }
  }

  // ---------------------------------------------------------------------------
  // Item name: `plan-x-${type.split('/')[0]}-${now}`

  /** `mime.split('/')[0]`: everything before the first slash, or the whole type. */
  function TypePart(mime: string): (t: string)
    ensures '/' !in t
    ensures StartsWith(mime, t)
    ensures |t| < |mime| ==> mime[|t|] == '/'
  {
    if mime == [] || mime[0] == '/' then [] else [mime[0]] + TypePart(mime[1..])
  }

  /** The part before the first slash of `a/b` is a, when a holds no slash. */
  lemma {:induction false} TypePartStopsAtSlash(a: string, b: string)
    requires '/' !in a
    ensures TypePart(a + "/" + b) == a
  {
    if a != [] {
      assert (a + "/" + b)[1..] == a[1..] + "/" + b;
      TypePartStopsAtSlash(a[1..], b);
    }
  }

  /** The item the upload creates: a single path segment starting "plan-x-". */
  function ItemName(mime: string, now: nat): (r: string)
    ensures StartsWith(r, ItemPrefix)
    ensures '/' !in r
  {
    ItemPrefix + TypePart(mime) + "-" + NatToString(now)
  }

  lemma DashAt(p: string, n: string)
    requires p != [] && p[|p| - 1] == '-'
    ensures (p + n)[|p| - 1] == '-'
  {
  }

  lemma NoDashAmongDigits(p: string, n: string, k: int)
    requires AllDigits(n) && |p| <= k < |p| + |n|
    ensures (p + n)[k] != '-'
  {
    assert (p + n)[k] == n[k - |p|];
  }

  /** When the numeral after the last dash is all digits, the split is unique. */
  lemma DigitTailSplit(p1: string, n1: string, p2: string, n2: string)
    requires p1 != [] && p1[|p1| - 1] == '-' && AllDigits(n1)
    requires p2 != [] && p2[|p2| - 1] == '-' && AllDigits(n2)
    requires p1 + n1 == p2 + n2
    ensures p1 == p2 && n1 == n2
  {
    var s := p1 + n1;
    if |n1| < |n2| {
      DashAt(p1, n1);
      NoDashAmongDigits(p2, n2, |p1| - 1);
      assert false;
    } else if |n2| < |n1| {
      DashAt(p2, n2);
      NoDashAmongDigits(p1, n1, |p2| - 1);
      assert false;
    }
    assert p1 == s[..|p1|] && p2 == s[..|p2|];
    assert n1 == s[|p1|..] && n2 == s[|p2|..];
  }

  /** Two uploads get the same item name only if their types' first parts agree and
      they started at the same millisecond. */
  lemma ItemNameInjective(m1: string, t1: nat, m2: string, t2: nat)
    requires ItemName(m1, t1) == ItemName(m2, t2)
    ensures TypePart(m1) == TypePart(m2) && t1 == t2
  {
    var p1 := ItemPrefix + TypePart(m1) + "-";
    var p2 := ItemPrefix + TypePart(m2) + "-";
    DigitTailSplit(p1, NatToString(t1), p2, NatToString(t2));
    NatToStringValue(t1);
    NatToStringValue(t2);
    assert TypePart(m1) == p1[|ItemPrefix|..|p1| - 1];
    assert TypePart(m2) == p2[|ItemPrefix|..|p2| - 1];
  }

  // ---------------------------------------------------------------------------
  // Addresses and headers

  /** The upload address: below the S3 endpoint, the item, a slash, then the file. */
  function PutUrl(itemName: string, fileName: string): (u: string)
    ensures |u| == |PutBase| + |itemName| + 1 + |fileName| && StartsWith(u, PutBase)
    ensures u[|PutBase|..|PutBase| + |itemName|] == itemName
    ensures u[|PutBase| + |itemName|] == '/'
    ensures u[|PutBase| + |itemName| + 1..] == fileName
  {
    PutBase + itemName + "/" + fileName
  }

  /** The download address: below the archive's download path, the item, a slash, then the file. */
  function PublicUrl(itemName: string, fileName: string): (u: string)
    ensures |u| == |PublicBase| + |itemName| + 1 + |fileName| && StartsWith(u, PublicBase)
    ensures u[|PublicBase|..|PublicBase| + |itemName|] == itemName
    ensures u[|PublicBase| + |itemName|] == '/'
    ensures u[|PublicBase| + |itemName| + 1..] == fileName
  {
    PublicBase + itemName + "/" + fileName
  }

  /** The download address names the same item and file the upload was put to. */
  lemma PublicUrlMatchesPutUrl(itemName: string, fileName: string)
    ensures PublicUrl(itemName, fileName)[|PublicBase|..] == PutUrl(itemName, fileName)[|PutBase|..]
  {
    assert PublicUrl(itemName, fileName)[|PublicBase|..] == itemName + "/" + fileName;
    assert PutUrl(itemName, fileName)[|PutBase|..] == itemName + "/" + fileName;
  }

  /** The archive's media type: "movies" for any video type, "texts" for everything else. */
  function MediaType(mime: string): (m: string)
    ensures m == "movies" <==> StartsWith(mime, "video/")
    ensures m == "movies" || m == "texts"
  {
    if StartsWith(mime, "video/") then "movies" else "texts"
  }

  /** A file uploaded as "movies" lands in an item named after the type "video". */
  lemma MoviesAreVideoItems(mime: string, now: nat)
    requires MediaType(mime) == "movies"
    ensures TypePart(mime) == "video"
    ensures ItemName(mime, now) == "plan-x-video-" + NatToString(now)
  {
    assert mime == "video" + "/" + mime[6..];
    TypePartStopsAtSlash("video", mime[6..]);
  }

  /** The PUT request the upload sends, without its credentials. */
  datatype PutRequest = PutRequest(
    url: string,
    contentType: string,
    autoMakeBucket: string,
    collection: string,
    mediaType: string)

  /** Everything the upload fixes before sending. */
  datatype Plan = Plan(itemName: string, fileName: string, request: PutRequest)

  function PlanUpload(file: File, now: nat): (p: Plan)
    ensures p.itemName == ItemName(file.mimeType, now)
    ensures p.fileName == Sanitize(file.name)
    ensures p.request.url == PutUrl(p.itemName, p.fileName)
    ensures NoWhitespace(p.fileName) && Visible(p.fileName) == Visible(file.name)
    ensures p.request.contentType == file.mimeType
    ensures p.request.mediaType == MediaType(file.mimeType)
    ensures p.request.autoMakeBucket == "1" && p.request.collection == "opensource"
  {
    SanitizeKeepsVisible(file.name);
    var item := ItemName(file.mimeType, now);
    var name := Sanitize(file.name);
    Plan(item, name, PutRequest(PutUrl(item, name), file.mimeType, "1", "opensource", MediaType(file.mimeType)))
  }

  // ---------------------------------------------------------------------------
  // Progress and completion

  /** `Math.round(loaded * 100 / total)`, for a known, non-zero total. */
  function Percentage(loaded: nat, total: nat): (r: int)
    requires total > 0
    ensures r >= 0
    ensures 2 * r * total - total <= 200 * loaded < 2 * r * total + total
  {
    (200 * loaded + total) / (2 * total)
  }

  /** A positive factor can be cancelled from both sides of an inequality. */
  lemma CancelPositive(a: int, b: int, t: int)
    requires t > 0 && a * t <= b * t
    ensures a <= b
  {
    if a > b {
      assert false;
    }
  }

  /** The share reported is at most 100 while the loaded count stays within the total, and 100 at the end. */
  lemma PercentageBounds(loaded: nat, total: nat)
    requires 0 < total && loaded <= total
    ensures Percentage(loaded, total) <= 100
    ensures loaded == total ==> Percentage(loaded, total) == 100
    ensures loaded == 0 ==> Percentage(loaded, total) == 0
  {
    var r := Percentage(loaded, total);
    assert 2 * r * total <= 201 * total;
    CancelPositive(2 * r, 201, total);
    if loaded == total {
      assert 199 * total <= 2 * r * total;
      CancelPositive(199, 2 * r, total);
    }
    if loaded == 0 {
      assert 2 * r * total <= 1 * total;
      CancelPositive(2 * r, 1, total);
    }
  }

  /** The upload's progress callback: called only when the length is computable. */
  function ProgressReport(computable: bool, loaded: nat, total: nat): (r: Option<int>)
    requires computable ==> total > 0
    ensures r.Some? <==> computable
    ensures r.Some? ==> r.value == Percentage(loaded, total)
  {
    if computable then Some(Percentage(loaded, total)) else None
  }

  /** How the request ended: a response with its status and body, or a network error. */
  datatype Ending = Loaded(status: int, responseText: string) | NetworkError

  function FailureMessage(status: int, responseText: string): string {
    "Upload failed with status: " + IntToString(status) + " - " + responseText
  }

  /** The promise's outcome: the download address on a 2xx status, an error otherwise. */
  function Settle(ending: Ending, itemName: string, fileName: string): (r: Result<string>)
    ensures r.Ok? <==> ending.Loaded? && 200 <= ending.status < 300
    ensures r.Ok? ==> r.value == PublicUrl(itemName, fileName)
    ensures ending.NetworkError? ==> r == Err(NetworkErrorMessage)
    ensures ending.Loaded? && r.Err? ==> r.message == FailureMessage(ending.status, ending.responseText)
  {
    match ending
    case NetworkError => Err(NetworkErrorMessage)
    case Loaded(status, text) =>
      if 200 <= status < 300 then Ok(PublicUrl(itemName, fileName)) else Err(FailureMessage(status, text))
  }

  /** A successful upload resolves to the download address of the very item and file it put. */
  lemma SuccessPointsAtUpload(file: File, now: nat, status: int, text: string)
    requires 200 <= status < 300
    ensures var p := PlanUpload(file, now);
      var r := Settle(Loaded(status, text), p.itemName, p.fileName);
      r.Ok? && r.value[|PublicBase|..] == p.request.url[|PutBase|..]
  {
    var p := PlanUpload(file, now);
    PublicUrlMatchesPutUrl(p.itemName, p.fileName);
  }
}

=== FILE: auth_context.dfy ===
/** The session store: who is signed in, whether a sign-in is in progress, and
    the copy of the session kept in the browser's storage under 'planx-user'.
    Every remote reply an operation waits for enters as a parameter. */
module AuthContext {
  import opened Basics
  import opened Types
  import ApiService

  /** The 'planx-user' storage entry: missing, a stored account, or text that does not parse. */
  datatype Slot = Absent | Saved(user: User) | Garbled

  const DuplicateEmailMessage := "User with this email already exists."

  /** The login test: same email and exactly this password on the record. */
  predicate HasCredentials(u: User, email: string, password: string) {
    u.email == email && u.password == Some(password)
  }

  /** The account login signs in with: the first whose credentials match, without its password. */
  function FindAccount(users: seq<User>, email: string, password: string): (r: Option<User>)
    ensures r.None? <==> forall i :: 0 <= i < |users| ==> !HasCredentials(users[i], email, password)
    ensures r.Some? ==> r.value.password.None?
    ensures r.Some? ==> exists i :: 0 <= i < |users| && HasCredentials(users[i], email, password)
                                    && r.value == WithoutPassword(users[i])
                                    && forall j :: 0 <= j < i ==> !HasCredentials(users[j], email, password)
  {
    match FindFirst(users, u => HasCredentials(u, email, password))
    case None => None
    case Some(i) => Some(WithoutPassword(users[i]))
  }

  /** The account signup signs in with after creating it: the first with this email, without its password. */
  function FindByEmail(users: seq<User>, email: string): (r: Option<User>)
    ensures r.None? <==> forall i :: 0 <= i < |users| ==> users[i].email != email
    ensures r.Some? ==> r.value.password.None? && r.value.email == email
    ensures r.Some? ==> exists i :: 0 <= i < |users| && users[i].email == email
                                    && r.value == WithoutPassword(users[i])
                                    && forall j :: 0 <= j < i ==> users[j].email != email
  {
    match FindFirst(users, (u: User) => u.email == email)
    case None => None
    case Some(i) => Some(WithoutPassword(users[i]))
  }

  /** What signup's createUser call sends for the new account: a standard user named "Dr. " + name. */
  predicate CreatesAccount(req: ApiService.Request, name: string, email: string, password: string, avatar: string) {
    && req.endpoint == ApiService.UsersEndpoint
    && ApiService.Read(req.form) == ApiService.Nothing.(
         action := Some("create"), name := Some("Dr. " + name), email := Some(email), password := Some(password),
         role := Some(RoleName(Standard)), avatar := Some(avatar), watched := Some("{}"))
  }

  /** How the promise updateUserContext returns settles, as written: it always
      resolves, because the failure of updateUser is caught to revert the session
      and not thrown again. */
  function CompletionAsWritten(hasSession: bool, remote: Status): (s: Status)
    ensures s.Succeeded?
  {
    Succeeded
  }

  /** How it settles once the failure is thrown again after the revert: it rejects
      exactly when a session existed and updateUser failed, with updateUser's error. */
  function Completion(hasSession: bool, remote: Status): (s: Status)
    ensures s.Failed? <==> hasSession && remote.Failed?
    ensures s.Failed? ==> s == remote
  {
    if hasSession && remote.Failed? then remote else Succeeded
  }

  class AuthStore {
    var currentUser: Option<User>
    var loading: bool
    var slot: Slot

    /** The stored copy is the signed-in account, and nothing is stored when nobody is signed in. */
    ghost predicate Synced()
      reads this
    {
      match currentUser
      case None => slot == Absent
      case Some(u) => slot == Saved(u)
    }

    /** The provider's initial state: nobody signed in, loading, storage as the browser holds it. */
    constructor(stored: Slot)
      ensures currentUser.None? && loading && slot == stored
    {
      currentUser := None;
      loading := true;
      slot := stored;
    }

    /** The mount effect: a stored account becomes the session, unparsable text is removed. */
    method RestoreSession()
      modifies this
      ensures !loading
      ensures old(slot).Saved? ==> currentUser == Some(old(slot).user) && slot == old(slot)
      ensures !old(slot).Saved? ==> currentUser == old(currentUser) && slot == Absent
      ensures old(currentUser).None? || old(slot).Saved? ==> Synced()
    {
      match slot {
        case Saved(u) => currentUser := Some(u);
        case Garbled => slot := Absent;
        case Absent =>
      }
      loading := false;
    }

    /** login, given getUsers' outcome: the matching account, stripped of its password,
        becomes the session and the stored copy; no match changes nothing. */
    method Login(email: string, password: string, fetched: Result<seq<User>>) returns (r: Result<Option<User>>)
      modifies this
      ensures !loading
      ensures fetched.Err? ==> r == Err(fetched.message)
      ensures fetched.Ok? ==> r == Ok(FindAccount(fetched.value, email, password))
      ensures r.Ok? && r.value.Some? ==> currentUser == r.value && slot == Saved(r.value.value)
      ensures !(r.Ok? && r.value.Some?) ==> currentUser == old(currentUser) && slot == old(slot)
      ensures old(Synced()) ==> Synced()
    {
      loading := true;
      match fetched {
        case Err(m) =>
          r := Err(m);
        case Ok(users) =>
          var found := FindAccount(users, email, password);
          if found.Some? {
            slot := Saved(found.value);
            currentUser := found;
          }
          r := Ok(found);
      }
      loading := false;
    }

    /** signup, given the outcomes of the first getUsers, of createUser and of the
        second getUsers: a taken email stops it before anything is sent; otherwise
        the account is created and then looked up again by email. */
    method Signup(name: string, email: string, password: string, avatar: string,
                  existing: Result<seq<User>>, created: Status, refetched: Result<seq<User>>)
      returns (r: Result<Option<User>>, sent: Option<ApiService.Request>)
      modifies this
      ensures !loading
      ensures existing.Err? ==> r == Err(existing.message) && sent.None?
      ensures existing.Ok? && FindByEmail(existing.value, email).Some? ==> r == Err(DuplicateEmailMessage) && sent.None?
      ensures existing.Ok? && FindByEmail(existing.value, email).None? ==>
                sent.Some? && CreatesAccount(sent.value, name, email, password, avatar)
                && r == (if created.Failed? then Err(created.message)
                         else if refetched.Err? then Err(refetched.message)
                         else Ok(FindByEmail(refetched.value, email)))
      ensures r.Ok? && r.value.Some? ==> currentUser == r.value && slot == Saved(r.value.value)
      ensures !(r.Ok? && r.value.Some?) ==> currentUser == old(currentUser) && slot == old(slot)
      ensures old(Synced()) ==> Synced()
    {
      loading := true;
      sent := None;
      if existing.Err? {
        r := Err(existing.message);
      } else if FindByEmail(existing.value, email).Some? {
        r := Err(DuplicateEmailMessage);
      } else {
        var req := ApiService.CreateUser("Dr. " + name, email, password, Standard, avatar);
        sent := Some(req);
        if created.Failed? {
          r := Err(created.message);
        } else if refetched.Err? {
          r := Err(refetched.message);
        } else {
          var found := FindByEmail(refetched.value, email);
          if found.Some? {
            slot := Saved(found.value);
            currentUser := found;
          }
          r := Ok(found);
        }
      }
      loading := false;
    }

    /** logout: nobody signed in and nothing stored. */
    method Logout()
      modifies this
      ensures currentUser.None? && slot == Absent && loading == old(loading)
      ensures Synced()
    {
      currentUser := None;
      slot := Absent;
    }

    /** updateUserContext, given updateUser's outcome: the changes are applied to the
        session and the stored copy at once, and both go back to the previous account
        if the backend call fails. Without a session nothing happens. The failure is
        caught for the revert and not passed on, so the returned promise always
        resolves (see CompletionAsWritten). */
    method UpdateUserContext(patch: UserPatch, remote: Status, encode: Watched -> string)
      returns (sent: Option<ApiService.Request>, outcome: Status)
      modifies this
      ensures outcome == CompletionAsWritten(old(currentUser).Some?, remote)
      ensures outcome.Succeeded?
      ensures loading == old(loading)
      ensures old(currentUser).None? ==> sent.None? && currentUser == old(currentUser) && slot == old(slot)
      ensures old(currentUser).Some? ==>
                sent.Some? && ApiService.UpdatesUser(sent.value, old(currentUser).value.id, patch, encode)
      ensures old(currentUser).Some? && remote.Succeeded? ==> currentUser == Some(Merge(old(currentUser).value, patch))
      ensures old(currentUser).Some? && remote.Failed? ==> currentUser == old(currentUser)
      ensures old(currentUser).Some? ==> Synced()
    {
      sent := None;
      outcome := CompletionAsWritten(currentUser.Some?, remote);
      if currentUser.Some? {
        var previous := currentUser.value;
        var updated := Merge(previous, patch);
        currentUser := Some(updated);
        slot := Saved(updated);
        var req := ApiService.UpdateUser(previous.id, patch, encode);
        sent := Some(req);
        if remote.Failed? {
          currentUser := Some(previous);
          slot := Saved(previous);
        }
      }
    }
  }
}

=== FILE: basics.dfy ===
/** Vocabulary shared by the whole model: optional values, the outcome of a remote
    call, first-match search and order-keeping filters over sequences, the string
    predicates the portal relies on (prefix, substring, ECMAScript whitespace, trim)
    and decimal rendering of integers. */
module Basics {

  datatype Option<+T> = None | Some(value: T) {
    function GetOr(default: T): T {
      if Some? then value else default
    }
  }

  /** A remote call that yields a value: its reply, or the error it threw. */
  datatype Result<+T> = Ok(value: T) | Err(message: string)

  /** A remote call whose reply body is not used: it resolved, or it threw. */
  datatype Status = Succeeded | Failed(message: string)

  // ---------------------------------------------------------------------------
  // Sequences

  /** The index of the first element that satisfies p, as `Array.prototype.find` picks it. */
  function FindFirst<T>(s: seq<T>, p: T -> bool): (r: Option<nat>)
    ensures r.Some? ==> r.value < |s| && p(s[r.value])
    ensures r.Some? ==> forall j :: 0 <= j < r.value ==> !p(s[j])
    ensures r.None? <==> forall j :: 0 <= j < |s| ==> !p(s[j])
  {
    if s == [] then None
    else if p(s[0]) then Some(0)
    else match FindFirst(s[1..], p)
      case None => None
      case Some(k) => Some(k + 1)
  }

  /** r can be obtained from s by deleting elements, so it keeps their order. */
  predicate IsSubsequence<T(==)>(r: seq<T>, s: seq<T>)
    decreases |s|
  {
    r == [] || (s != [] && if r[0] == s[0] then IsSubsequence(r[1..], s[1..]) else IsSubsequence(r, s[1..]))
  }

  /** The elements of s that satisfy p, in their original order (`Array.prototype.filter`). */
  function Filter<T(==)>(s: seq<T>, p: T -> bool): (r: seq<T>)
    ensures forall x :: x in r ==> x in s && p(x)
    ensures forall i :: 0 <= i < |s| && p(s[i]) ==> s[i] in r
  {
    if s == [] then []
    else if p(s[0]) then [s[0]] + Filter(s[1..], p)
    else Filter(s[1..], p)
  }

  /** Filter keeps the order of the elements it keeps. */
  lemma {:induction false} FilterKeepsOrder<T>(s: seq<T>, p: T -> bool)
    ensures IsSubsequence(Filter(s, p), s)
  {
    if s != [] {
      FilterKeepsOrder(s[1..], p);
    }
  }

  /** Filter keeps every passing element as often as it occurs, and no other. */
  lemma {:induction false} FilterCounts<T>(s: seq<T>, p: T -> bool)
    ensures forall x :: x in s ==> multiset(Filter(s, p))[x] == if p(x) then multiset(s)[x] else 0
  {
    if s != [] {
      FilterCounts(s[1..], p);
      assert s == [s[0]] + s[1..];
    }
  }

  /** One step of Filter: the head is kept exactly when it passes. */
  lemma FilterStep<T>(s: seq<T>, p: T -> bool)
    requires s != []
    ensures Filter(s, p) == if p(s[0]) then [s[0]] + Filter(s[1..], p) else Filter(s[1..], p)
  {
  }

  /** The first n elements of s, or all of s when it is shorter (`slice(0, n)`). */
  function Take<T>(s: seq<T>, n: nat): (r: seq<T>)
    ensures |r| == if |s| <= n then |s| else n
    ensures |s| <= n ==> r == s
    ensures forall i :: 0 <= i < |r| ==> r[i] == s[i]
  {
    if |s| <= n then s else s[..n]
  }

  // ---------------------------------------------------------------------------
  // Strings

  predicate StartsWith(s: string, prefix: string) {
    |prefix| <= |s| && s[..|prefix|] == prefix
  }

  /** t occurs in s at some position (`String.prototype.includes`). */
  predicate Contains(s: string, t: string)
    decreases |s|
  {
    StartsWith(s, t) || (s != [] && Contains(s[1..], t))
  }

  /** The position of the first occurrence of t in s, or -1 (`String.prototype.indexOf`). */
  function IndexOf(s: string, t: string): (i: int)
    ensures i >= 0 <==> Contains(s, t)
    ensures i < 0 ==> i == -1
    ensures i >= 0 ==> i + |t| <= |s| && StartsWith(s[i..], t)
    ensures i >= 0 ==> forall j :: 0 <= j < i ==> !StartsWith(s[j..], t)
    decreases |s|
  {
    if StartsWith(s, t) then 0
    else if s == [] then -1
    else
      var k := IndexOf(s[1..], t);
      if k < 0 then -1
      else
        assert s[1..][k..] == s[k + 1..];
        assert forall j :: 0 < j <= k ==> s[1..][j - 1..] == s[j..];
        k + 1
  }

  /** The empty string occurs in every string. */
  lemma ContainsEmpty(s: string)
    ensures Contains(s, "")
  {
    assert StartsWith(s, "");
  }

  /** ECMAScript WhiteSpace and LineTerminator code points: what `trim` removes and `\s` matches. */
  predicate IsWhitespace(c: char) {
    || c == '\t' || c == '\n' || c == '\U{000B}' || c == '\U{000C}' || c == '\r' || c == ' '
    || c == '\U{00A0}' || c == '\U{1680}' || ('\U{2000}' <= c <= '\U{200A}')
    || c == '\U{2028}' || c == '\U{2029}' || c == '\U{202F}' || c == '\U{205F}'
    || c == '\U{3000}' || c == '\U{FEFF}'
  }

  predicate AllWhitespace(s: string) {
    forall i :: 0 <= i < |s| ==> IsWhitespace(s[i])
  }

  predicate NoWhitespace(s: string) {
    forall i :: 0 <= i < |s| ==> !IsWhitespace(s[i])
  }

  function TrimStart(s: string): (r: string)
    ensures r == [] || !IsWhitespace(r[0])
    ensures r == [] <==> AllWhitespace(s)
  {
    if s != [] && IsWhitespace(s[0]) then TrimStart(s[1..]) else s
  }

  function TrimEnd(s: string): (r: string)
    ensures r == [] || !IsWhitespace(r[|r| - 1])
    ensures StartsWith(s, r)
  {
    if s != [] && IsWhitespace(s[|s| - 1]) then TrimEnd(s[..|s| - 1]) else s
  }

  /** `String.prototype.trim`: leading and trailing whitespace removed. */
  function Trim(s: string): string {
    TrimEnd(TrimStart(s))
  }

  /** Trimming leaves nothing exactly when every character is whitespace. */
  lemma {:induction false} TrimEmptyIffBlank(s: string)
    ensures Trim(s) == [] <==> AllWhitespace(s)
  {
    var t := TrimStart(s);
    if t != [] {
      // the first character of t survives TrimEnd, since TrimEnd only drops whitespace
      TrimEndKeepsNonBlank(t);
    }
  }

  lemma {:induction false} TrimEndKeepsNonBlank(s: string)
    requires s != [] && !IsWhitespace(s[0])
    ensures TrimEnd(s) != []
  {
    if IsWhitespace(s[|s| - 1]) {
      assert |s| > 1;
      TrimEndKeepsNonBlank(s[..|s| - 1]);
    }
  }

  // ---------------------------------------------------------------------------
  // Decimal numerals (`Number.prototype.toString` on integers)

  predicate IsDigit(c: char) {
    '0' <= c <= '9'
  }

  predicate AllDigits(s: string) {
    forall i :: 0 <= i < |s| ==> IsDigit(s[i])
  }

  function DigitChar(d: nat): (c: char)
    requires d < 10
    ensures IsDigit(c) && c as int - '0' as int == d
  {
    (d + '0' as int) as char
  }

  /** The decimal numeral of n, most significant digit first, without leading zeros. */
  function NatToString(n: nat): (s: string)
    ensures |s| >= 1 && AllDigits(s)
    ensures |s| > 1 ==> s[0] != '0'
  {
    if n < 10 then [DigitChar(n)] else NatToString(n / 10) + [DigitChar(n % 10)]
  }

  function IntToString(n: int): string {
    if n < 0 then "-" + NatToString(-n) else NatToString(n)
  }

  /** The value of a string of decimal digits. */
  function DigitsValue(s: string): nat
    requires AllDigits(s)
  {
    if s == [] then 0 else DigitsValue(s[..|s| - 1]) * 10 + (s[|s| - 1] as int - '0' as int)
  }

  /** Reads an optionally signed decimal numeral. */
  function ParseInt(s: string): Option<int> {
    if |s| > 1 && s[0] == '-' && AllDigits(s[1..]) then Some(0 - DigitsValue(s[1..]) as int)
    else if s != [] && AllDigits(s) then Some(DigitsValue(s))
    else None
  }

  lemma {:induction false} NatToStringValue(n: nat)
    ensures DigitsValue(NatToString(n)) == n
  {
    if n >= 10 {
      NatToStringValue(n / 10);
      var s := NatToString(n);
      assert s[..|s| - 1] == NatToString(n / 10);
    }
  }

  /** Rendering an integer and reading it back gives the integer. */
  lemma IntToStringRoundTrip(n: int)
    ensures ParseInt(IntToString(n)) == Some(n)
  {
    if n < 0 {
      NatToStringValue(-n);
      var s := IntToString(n);
      assert s[1..] == NatToString(-n);
    } else {
      NatToStringValue(n);
    }
  }
}

=== FILE: continue_watching.dfy ===
/** The "Continue Watching" row of the home page: the signed-in user's lectures
    that are started but not finished, most advanced first, at most four. */
module ContinueWatching {
  import opened Basics
  import opened Types
  import Sorting

  /** A lecture paired with the user's progress on it, in percent. */
  datatype WatchedVideo = WatchedVideo(resource: Resource, progress: int)

  /** The row's length limit. */
  const RowLimit := 4

  /** Progress strictly between 5 and 95 percent counts as started and unfinished. */
  predicate InProgress(p: int) {
    5 < p < 95
  }

  /** The lecture `find` returns for an id: the first one carrying it. */
  function FirstWithId(resources: seq<Resource>, id: string): (r: Option<Resource>)
    ensures r.None? <==> forall i :: 0 <= i < |resources| ==> resources[i].id != id
    ensures r.Some? ==> exists i :: 0 <= i < |resources| && resources[i] == r.value && r.value.id == id
                                    && forall j :: 0 <= j < i ==> resources[j].id != id
  {
    match FindFirst(resources, (r: Resource) => r.id == id)
    case None => None
    case Some(i) => Some(resources[i])
  }

  /** v comes from one of the watched entries: its lecture is the first with the
      entry's id, its progress the entry's, and that progress is in range. */
  predicate Qualifies(v: WatchedVideo, watched: Watched, resources: seq<Resource>) {
    exists k :: 0 <= k < |watched| && Entry(v, watched[k], resources)
  }

  predicate Entry(v: WatchedVideo, e: WatchEntry, resources: seq<Resource>) {
    && e.progress == v.progress
    && InProgress(v.progress)
    && FirstWithId(resources, e.resourceId) == Some(v.resource)
  }

  lemma QualifiesInTail(watched: Watched, resources: seq<Resource>)
    requires watched != []
    ensures forall v :: Qualifies(v, watched[1..], resources) ==> Qualifies(v, watched, resources)
  {
    forall v | Qualifies(v, watched[1..], resources) ensures Qualifies(v, watched, resources) {
      var k :| 0 <= k < |watched[1..]| && Entry(v, watched[1..][k], resources);
      assert Entry(v, watched[k + 1], resources);
    }
  }

  /** A watched entry that names an existing lecture and is in progress. */
  predicate IsCandidate(e: WatchEntry, resources: seq<Resource>) {
    InProgress(e.progress) && FirstWithId(resources, e.resourceId).Some?
  }

  /** The card such an entry becomes. */
  function ToVideo(e: WatchEntry, resources: seq<Resource>): WatchedVideo
    requires IsCandidate(e, resources)
  {
    WatchedVideo(FirstWithId(resources, e.resourceId).value, e.progress)
  }

  /** The entries, in their stored order, that name a known lecture and are in progress. */
  function Candidates(watched: Watched, resources: seq<Resource>): (c: seq<WatchedVideo>)
    ensures |c| <= |watched|
    ensures forall v :: v in c ==> Qualifies(v, watched, resources)
    ensures forall k :: 0 <= k < |watched| && InProgress(watched[k].progress)
                        && FirstWithId(resources, watched[k].resourceId).Some? ==>
              WatchedVideo(FirstWithId(resources, watched[k].resourceId).value, watched[k].progress) in c
  {
    if watched == [] then []
    else
      var e := watched[0];
      var rest := Candidates(watched[1..], resources);
      QualifiesInTail(watched, resources);
      match FirstWithId(resources, e.resourceId)
      case Some(res) =>
        if InProgress(e.progress) then
          assert Entry(WatchedVideo(res, e.progress), watched[0], resources);
          [WatchedVideo(res, e.progress)] + rest
        else rest
      case None => rest
  }

  lemma CandidatesStep(watched: Watched, resources: seq<Resource>)
    requires watched != []
    ensures Candidates(watched, resources) ==
      if IsCandidate(watched[0], resources) then [ToVideo(watched[0], resources)] + Candidates(watched[1..], resources)
      else Candidates(watched[1..], resources)
  {
  }

  /** The card list of entries that are all candidates, one card per entry, in order. */
  predicate CardsOf(c: seq<WatchedVideo>, q: Watched, resources: seq<Resource>) {
    |c| == |q| && forall i :: 0 <= i < |c| ==> IsCandidate(q[i], resources) && c[i] == ToVideo(q[i], resources)
  }

  lemma CardsOfCons(c: seq<WatchedVideo>, q: Watched, e: WatchEntry, resources: seq<Resource>)
    requires CardsOf(c, q, resources) && IsCandidate(e, resources)
    ensures CardsOf([ToVideo(e, resources)] + c, [e] + q, resources)
  {
  }

  /** The candidates are the cards of the candidate entries, one per entry and in
      the entries' stored order: the order the stable sort keeps among equal progress. */
  lemma {:induction false} CandidatesInOrder(watched: Watched, resources: seq<Resource>)
    ensures CardsOf(Candidates(watched, resources), Filter(watched, (e: WatchEntry) => IsCandidate(e, resources)), resources)
  {
    if watched != [] {
      CandidatesInOrder(watched[1..], resources);
      CandidatesStep(watched, resources);
      var p := (e: WatchEntry) => IsCandidate(e, resources);
      FilterStep(watched, p);
      if p(watched[0]) {
        CardsOfCons(Candidates(watched[1..], resources), Filter(watched[1..], p), watched[0], resources);
      }
    }
  }

  /** The comparator b.progress - a.progress as an ascending key. */
  function ByProgressDesc(v: WatchedVideo): int {
    -v.progress
  }

  /** watchedVideos: empty without a session; otherwise the candidates sorted by
      descending progress (stable), cut to the first four. */
  function Row(user: Option<User>, resources: seq<Resource>): (row: seq<WatchedVideo>)
    ensures user.None? ==> row == []
    ensures |row| <= RowLimit
    ensures user.Some? ==> var n := |Candidates(user.value.watched, resources)|;
      |row| == if n <= RowLimit then n else RowLimit
  {
    if user.None? then []
    else Take(Sorting.SortBy(Candidates(user.value.watched, resources), ByProgressDesc), RowLimit)
  }

  /** The sorted candidates the row is cut from. */
  function Ranked(user: User, resources: seq<Resource>): seq<WatchedVideo> {
    Sorting.SortBy(Candidates(user.watched, resources), ByProgressDesc)
  }

  /** The row is the first four of the ranked candidates. */
  lemma RowIsPrefix(user: User, resources: seq<Resource>)
    ensures var ranked := Ranked(user, resources);
      Row(Some(user), resources) == ranked[..if |ranked| < RowLimit then |ranked| else RowLimit]
  {
  }

  /** Every card in the row is a watched, in-progress lecture. */
  lemma RowEntriesQualify(user: User, resources: seq<Resource>)
    ensures forall v :: v in Row(Some(user), resources) ==> Qualifies(v, user.watched, resources)
  {
    var c := Candidates(user.watched, resources);
    Sorting.SortByPermutation(c, ByProgressDesc);
    forall v | v in Row(Some(user), resources) ensures v in c {
      assert v in multiset(Ranked(user, resources));
    }
  }

  /** The row is in non-increasing order of progress. */
  lemma RowDescending(user: User, resources: seq<Resource>)
    ensures var row := Row(Some(user), resources);
      forall i, j :: 0 <= i < j < |row| ==> row[i].progress >= row[j].progress
  {
    var ranked := Ranked(user, resources);
    Sorting.SortBySorted(Candidates(user.watched, resources), ByProgressDesc);
    RowIsPrefix(user, resources);
    assert forall i, j :: 0 <= i < j < |ranked| ==> ByProgressDesc(ranked[i]) <= ByProgressDesc(ranked[j]);
  }

  /** The row shows the most advanced lectures: no in-progress lecture left out of it
      is further along than any card in it. */
  lemma RowIsTop(user: User, resources: seq<Resource>)
    ensures var row := Row(Some(user), resources);
      forall x, i :: x in multiset(Candidates(user.watched, resources)) - multiset(row) && 0 <= i < |row| ==>
        x.progress <= row[i].progress
  {
    var c := Candidates(user.watched, resources);
    var ranked := Ranked(user, resources);
    var row := Row(Some(user), resources);
    Sorting.SortByPermutation(c, ByProgressDesc);
    Sorting.SortBySorted(c, ByProgressDesc);
    RowIsPrefix(user, resources);
    LeftOutIsTail(ranked, |row|);
    TailDominated(ranked, |row|);
  }

  lemma LeftOutIsTail(ranked: seq<WatchedVideo>, n: nat)
    requires n <= |ranked|
    ensures multiset(ranked) - multiset(ranked[..n]) == multiset(ranked[n..])
  {
    assert ranked == ranked[..n] + ranked[n..];
  }

  lemma TailDominated(ranked: seq<WatchedVideo>, n: nat)
    requires n <= |ranked| && Sorting.SortedBy(ranked, ByProgressDesc)
    ensures forall x, i :: x in multiset(ranked[n..]) && 0 <= i < n ==> x.progress <= ranked[i].progress
  {
    forall x: WatchedVideo, i | x in multiset(ranked[n..]) && 0 <= i < n
      ensures x.progress <= ranked[i].progress
    {
      var j :| 0 <= j < |ranked[n..]| && ranked[n..][j] == x;
      assert ByProgressDesc(ranked[i]) <= ByProgressDesc(ranked[n + j]);
    }
  }

  /** With four candidates or fewer, every one of them is shown. */
  lemma ShortListShownWhole(user: User, resources: seq<Resource>)
    requires |Candidates(user.watched, resources)| <= RowLimit
    ensures multiset(Row(Some(user), resources)) == multiset(Candidates(user.watched, resources))
  {
    Sorting.SortByPermutation(Candidates(user.watched, resources), ByProgressDesc);
  }

  /** The section renders (the row is non-empty) exactly when someone is signed in
      and one of their watched entries is an in-progress lecture that still exists. */
  lemma RowShownIff(user: Option<User>, resources: seq<Resource>)
    ensures Row(user, resources) != [] <==>
      user.Some? && exists k :: 0 <= k < |user.value.watched| && InProgress(user.value.watched[k].progress)
                                && FirstWithId(resources, user.value.watched[k].resourceId).Some?
  {
    if user.Some? {
      var w := user.value.watched;
      var c := Candidates(w, resources);
      if c != [] {
        assert Qualifies(c[0], w, resources);
      }
    }
  }
}

=== FILE: data_context.dfy ===
/** The shared data cache: the subject, resource and user lists every page reads,
    with the loading flag and the error of the last refresh. The three fetches a
    refresh waits for enter as parameters. */
module DataContext {
  import opened Basics
  import opened Types
  import Sorting
  import ApiService

  /** What getSubjects, getResources and getUsers hand back in one refresh: the
      decoded subject and resource lists, or the error each call threw, and the
      raw account records before their `watched` fields are decoded. */
  datatype Replies = Replies(
    subjects: Result<seq<Subject>>,
    resources: Result<seq<Resource>>,
    users: Result<seq<ApiService.RawUser>>)

  /** The provider's visible state. */
  datatype Snapshot = Snapshot(
    subjects: seq<Subject>,
    resources: seq<Resource>,
    users: seq<User>,
    loading: bool,
    error: Option<string>)

  /** The users the refresh would store, or why getUsers threw. */
  function DecodedUsers(r: Replies, decode: string -> Result<Watched>): Result<seq<User>> {
    match r.users
    case Err(m) => Err(m)
    case Ok(raws) => ApiService.GetUsers(raws, decode)
  }

  /** All three calls of the refresh resolve. */
  predicate AllSucceed(r: Replies, decode: string -> Result<Watched>) {
    r.subjects.Ok? && r.resources.Ok? && DecodedUsers(r, decode).Ok?
  }

  /** The messages of the calls that threw. */
  function Failures(r: Replies, decode: string -> Result<Watched>): (ms: set<string>)
    ensures ms == {} <==> AllSucceed(r, decode)
  {
    (if r.subjects.Err? then {r.subjects.message} else {})
      + (if r.resources.Err? then {r.resources.message} else {})
      + (if DecodedUsers(r, decode).Err? then {DecodedUsers(r, decode).message} else {})
  }

  /** The state once the three calls of a refresh have settled: all three lists
      replaced when every call resolves, none of them otherwise, and loading over. */
  function Settled(s: Snapshot, r: Replies, decode: string -> Result<Watched>): (t: Snapshot)
    ensures !t.loading
    ensures AllSucceed(r, decode) ==> t.error == s.error
    ensures !AllSucceed(r, decode) ==> t.error.Some? && t.error.value in Failures(r, decode)
    ensures !AllSucceed(r, decode) ==> t.subjects == s.subjects && t.resources == s.resources && t.users == s.users
    ensures AllSucceed(r, decode) ==>
              && t.subjects == Sorting.SortBy(r.subjects.value, ApiService.ByNumber)
              && t.resources == r.resources.value
              && t.users == DecodedUsers(r, decode).value
  {
    if r.subjects.Err? then s.(loading := false, error := Some(r.subjects.message))
    else if r.resources.Err? then s.(loading := false, error := Some(r.resources.message))
    else match DecodedUsers(r, decode)
      case Err(m) => s.(loading := false, error := Some(m))
      case Ok(us) =>
        s.(subjects := Sorting.SortBy(r.subjects.value, ApiService.ByNumber), resources := r.resources.value,
           users := us, loading := false)
  }

  /** A whole refresh: loading on and the error cleared, then the calls settle. */
  function Refreshed(s: Snapshot, r: Replies, decode: string -> Result<Watched>): (t: Snapshot)
    ensures !t.loading
    ensures t.error.None? <==> AllSucceed(r, decode)
  {
    Settled(s.(loading := true, error := None), r, decode)
  }

  /** A second refresh against the same backend data leaves the state of the first. */
  lemma RefreshIdempotent(s: Snapshot, r: Replies, decode: string -> Result<Watched>)
    requires AllSucceed(r, decode)
    ensures Refreshed(Refreshed(s, r, decode), r, decode) == Refreshed(s, r, decode)
  {
  }

  class DataCache {
    var subjects: seq<Subject>
    var resources: seq<Resource>
    var users: seq<User>
    var loading: bool
    var error: Option<string>

    function State(): Snapshot
      reads this
    {
      Snapshot(subjects, resources, users, loading, error)
    }

    /** The provider's initial state: empty lists, loading, no error. */
    constructor()
      ensures subjects == [] && resources == [] && users == []
      ensures loading && error.None?
    {
      subjects := [];
      resources := [];
      users := [];
      loading := true;
      error := None;
    }

    /** The first steps of fetchData: loading on, the previous error cleared. */
    method BeginRefresh()
      modifies this
      ensures State() == old(State()).(loading := true, error := None)
    {
      loading := true;
      error := None;
    }

    /** The rest of fetchData, once the three calls have settled. */
    method CompleteRefresh(r: Replies, decode: string -> Result<Watched>)
      modifies this
      ensures State() == Settled(old(State()), r, decode)
    {
      if r.subjects.Err? {
        error := Some(r.subjects.message);
      } else if r.resources.Err? {
        error := Some(r.resources.message);
      } else {
        var decoded := DecodedUsers(r, decode);
        if decoded.Err? {
          error := Some(decoded.message);
        } else {
          var sorted := ApiService.GetSubjects(r.subjects.value);
          subjects := sorted;
          resources := r.resources.value;
          users := decoded.value;
        }
      }
      loading := false;
    }

    /** fetchData as one step: the previous error never survives a refresh. */
    method Refresh(r: Replies, decode: string -> Result<Watched>)
      modifies this
      ensures State() == Refreshed(old(State()), r, decode)
    {
      BeginRefresh();
      CompleteRefresh(r, decode);
    }
  }
}

=== FILE: home_page.dfy ===
/** The home page's selectors: the lecture filter (search text and subject choice),
    the subjects to show, and the grouping of the filtered lectures into one
    section per subject. Lower-casing is the parameter `lower`. */
module HomePage {
  import opened Basics
  import opened Types

  /** The selector value that shows every subject. */
  const AllSubjects := "All"

  /** The title or the subject name contains the search text, ignoring case. */
  predicate MatchesSearch(r: Resource, term: string, lower: string -> string) {
    Contains(lower(r.title), lower(term)) || Contains(lower(r.subjectName), lower(term))
  }

  /** The subject choice is "All" or exactly the lecture's subject name. */
  predicate MatchesSubject(r: Resource, selected: string) {
    selected == AllSubjects || r.subjectName == selected
  }

  predicate Shown(r: Resource, term: string, selected: string, lower: string -> string) {
    MatchesSearch(r, term, lower) && MatchesSubject(r, selected)
  }

  /** filteredResources: the lectures that pass both tests, in their original order. */
  function FilterResources(resources: seq<Resource>, term: string, selected: string, lower: string -> string)
    : (rs: seq<Resource>)
    ensures forall r :: r in rs <==> r in resources && Shown(r, term, selected, lower)
    ensures forall r :: r in resources && Shown(r, term, selected, lower) ==> multiset(rs)[r] == multiset(resources)[r]
    ensures IsSubsequence(rs, resources)
  {
    FilterCounts(resources, r => Shown(r, term, selected, lower));
    FilterKeepsOrder(resources, r => Shown(r, term, selected, lower));
    Filter(resources, r => Shown(r, term, selected, lower))
  }

  /** subjectsToDisplay: every subject for "All", else those named exactly as chosen, in order. */
  function SubjectsToDisplay(subjects: seq<Subject>, selected: string): (ss: seq<Subject>)
    ensures selected == AllSubjects ==> ss == subjects
    ensures selected != AllSubjects ==> forall s :: s in ss <==> s in subjects && s.subjectName == selected
    ensures selected != AllSubjects ==>
              forall s :: s in subjects && s.subjectName == selected ==> multiset(ss)[s] == multiset(subjects)[s]
    ensures selected != AllSubjects ==> IsSubsequence(ss, subjects)
  {
    FilterCounts(subjects, (s: Subject) => s.subjectName == selected);
    FilterKeepsOrder(subjects, (s: Subject) => s.subjectName == selected);
    if selected == AllSubjects then subjects else Filter(subjects, (s: Subject) => s.subjectName == selected)
  }

  /** The lectures of one section: the filtered ones filed under the subject's name. */
  function SectionResources(filtered: seq<Resource>, s: Subject): (rs: seq<Resource>)
    ensures forall r :: r in rs <==> r in filtered && r.subjectName == s.subjectName
    ensures forall r :: r in filtered && r.subjectName == s.subjectName ==> multiset(rs)[r] == multiset(filtered)[r]
    ensures IsSubsequence(rs, filtered)
  {
    FilterCounts(filtered, (r: Resource) => r.subjectName == s.subjectName);
    FilterKeepsOrder(filtered, (r: Resource) => r.subjectName == s.subjectName);
    Filter(filtered, (r: Resource) => r.subjectName == s.subjectName)
  }

  datatype Section = Section(subject: Subject, resources: seq<Resource>)

  /** The subjects of a list of sections, in order. */
  function SubjectsOf(secs: seq<Section>): (ss: seq<Subject>)
    ensures |ss| == |secs| && forall i :: 0 <= i < |secs| ==> ss[i] == secs[i].subject
  {
    if secs == [] then [] else [secs[0].subject] + SubjectsOf(secs[1..])
  }

  /** The rendered sections: one per displayed subject, in order, skipping the empty ones. */
  function Sections(display: seq<Subject>, filtered: seq<Resource>): (secs: seq<Section>)
    ensures SubjectsOf(secs) == Filter(display, (s: Subject) => SectionResources(filtered, s) != [])
    ensures forall sec :: sec in secs ==>
              sec.subject in display && sec.resources != [] && sec.resources == SectionResources(filtered, sec.subject)
    ensures forall s :: s in display && SectionResources(filtered, s) != [] ==>
              Section(s, SectionResources(filtered, s)) in secs
  {
    if display == [] then []
    else
      var rest := Sections(display[1..], filtered);
      var rs := SectionResources(filtered, display[0]);
      if rs == [] then rest else [Section(display[0], rs)] + rest
  }

  /** "No lectures found" shows exactly when the filtered list is empty. */
  predicate ShowsNoLectures(filtered: seq<Resource>) {
    |filtered| == 0
  }

  lemma {:induction false} FilterKeepsAll<T>(s: seq<T>, p: T -> bool)
    requires forall i :: 0 <= i < |s| ==> p(s[i])
    ensures Filter(s, p) == s
  {
    if s != [] {
      FilterKeepsAll(s[1..], p);
    }
  }

  lemma {:induction false} FilterSameTest<T>(s: seq<T>, p: T -> bool, q: T -> bool)
    requires forall i :: 0 <= i < |s| ==> p(s[i]) == q(s[i])
    ensures Filter(s, p) == Filter(s, q)
  {
    if s != [] {
      FilterSameTest(s[1..], p, q);
    }
  }

  /** With no search text and "All" chosen, every lecture is listed, in order
      (given that lower-casing the empty text gives the empty text). */
  lemma EmptySearchShowsAll(resources: seq<Resource>, lower: string -> string)
    requires lower("") == ""
    ensures FilterResources(resources, "", AllSubjects, lower) == resources
  {
    forall i | 0 <= i < |resources|
      ensures Shown(resources[i], "", AllSubjects, lower)
    {
      ContainsEmpty(lower(resources[i].title));
    }
    FilterKeepsAll(resources, r => Shown(r, "", AllSubjects, lower));
  }

  /** Search depends on the text only through its lower-cased form: two texts that
      lower-case alike select the same lectures. */
  lemma SearchIgnoresCase(resources: seq<Resource>, term1: string, term2: string, selected: string,
                          lower: string -> string)
    requires lower(term1) == lower(term2)
    ensures FilterResources(resources, term1, selected, lower) == FilterResources(resources, term2, selected, lower)
  {
    FilterSameTest(resources, r => Shown(r, term1, selected, lower), r => Shown(r, term2, selected, lower));
  }

  /** Subject choice is exact: a listed lecture under a particular choice carries
      exactly that subject name, whatever the case of the search. */
  lemma SelectionIsExact(resources: seq<Resource>, term: string, selected: string, lower: string -> string, r: Resource)
    requires selected != AllSubjects && r in FilterResources(resources, term, selected, lower)
    ensures r.subjectName == selected
  {
  }

  /** A listed lecture whose subject name matches no displayed subject appears in no
      section; when every listed lecture is like that, the page shows no section and
      no "No lectures found" either. */
  lemma OrphansAppearNowhere(display: seq<Subject>, filtered: seq<Resource>, r: Resource)
    requires r in filtered && forall s :: s in display ==> s.subjectName != r.subjectName
    ensures forall sec :: sec in Sections(display, filtered) ==> r !in sec.resources
  {
  }

  lemma {:induction false} AllOrphansShowNothing(display: seq<Subject>, filtered: seq<Resource>)
    requires filtered != []
    requires forall r, s :: r in filtered && s in display ==> s.subjectName != r.subjectName
    ensures Sections(display, filtered) == [] && !ShowsNoLectures(filtered)
  {
    if display != [] {
      AllOrphansShowNothing(display[1..], filtered);
    }
  }
}

=== FILE: profile_page.dfy ===
/** The profile page: the name field shown without the "Dr. " title, the profile
    save (through the session store) and the password change (straight to the
    backend), each with the notice it leaves on the page. */
module ProfilePage {
  import opened Basics
  import opened Types
  import ApiService
  import AuthContext

  /** The title every account name carries from signup. */
  const Title := "Dr. "

  const ProfileSavedMessage := "Profile updated successfully!"
  const ProfileFailedMessage := "Failed to update profile."
  const TooShortMessage := "Password must be at least 6 characters."
  const MismatchMessage := "Passwords do not match."
  const PasswordChangedMessage := "Password changed successfully!"
  const PasswordFailedMessage := "Failed to change password."

  /** The shortest password the page accepts. */
  const MinPasswordLength := 6

  /** `s.replace(pat, rep)` with a string pattern: only the first occurrence is replaced. */
  function ReplaceFirst(s: string, pat: string, rep: string): (r: string)
    ensures !Contains(s, pat) ==> r == s
    ensures Contains(s, pat) ==> var i := IndexOf(s, pat);
      && StartsWith(s[i..], pat) && (forall j :: 0 <= j < i ==> !StartsWith(s[j..], pat))
      && r == s[..i] + rep + s[i + |pat|..]
    ensures StartsWith(s, pat) ==> r == rep + s[|pat|..]
    ensures Contains(s, pat) ==> |r| == |s| - |pat| + |rep|
  {
    var i := IndexOf(s, pat);
    if i < 0 then s else s[..i] + rep + s[i + |pat|..]
  }

  /** The name field's first value: the account name with its first "Dr. " removed. */
  function InitialName(current: Option<User>): (n: string)
    ensures current.None? ==> n == ""
  {
    if current.None? then "" else ReplaceFirst(current.value.name, Title, "")
  }

  /** The avatar picker's first value: the account's avatar, or the first stock avatar. */
  function InitialAvatar(current: Option<User>, defaultAvatar: string): (a: string)
    ensures current.Some? && current.value.avatar != "" ==> a == current.value.avatar
    ensures current.None? || current.value.avatar == "" ==> a == defaultAvatar
  {
    if current.Some? && current.value.avatar != "" then current.value.avatar else defaultAvatar
  }

  /** A titled name saved without edits comes back as it was: the field drops the
      title and the save puts it back. */
  lemma UneditedTitledNameRoundTrips(u: User)
    requires StartsWith(u.name, Title)
    ensures Title + InitialName(Some(u)) == u.name
  {
  }

  /** A name with no title anywhere gains one when saved without edits. */
  lemma UneditedUntitledNameGainsTitle(u: User)
    requires !Contains(u.name, Title)
    ensures Title + InitialName(Some(u)) == Title + u.name
  {
  }

  /** The changes a profile save hands to updateUserContext. */
  function ProfilePatch(id: string, name: string, avatar: string): (p: UserPatch)
    ensures p.password.None? && p.email.None? && p.role.None? && p.watched.None?
    ensures p.name == Some(Title + name) && p.avatar == Some(avatar) && p.id == Some(id)
  {
    NoChanges.(id := Some(id), name := Some(Title + name), avatar := Some(avatar))
  }

  /** What a profile save sends: the id, the titled name and, when chosen, the avatar; never a password. */
  lemma ProfileSaveSends(req: ApiService.Request, id: string, name: string, avatar: string, encode: Watched -> string)
    requires ApiService.UpdatesUser(req, id, ProfilePatch(id, name, avatar), encode)
    ensures ApiService.Read(req.form) == ApiService.Nothing.(
      action := Some("update"), id := Some(id), name := Some(Title + name),
      avatar := if avatar == "" then None else Some(avatar))
  {
  }

  /** The notice line pair the page shows: a message or an error. */
  datatype Notice = Notice(message: string, error: string)

  /** The notice once the save's promise settles. */
  function ProfileNotice(outcome: Status): (n: Notice)
    ensures n.message == ProfileSavedMessage <==> outcome.Succeeded?
    ensures n.error == ProfileFailedMessage <==> outcome.Failed?
    ensures n.message == "" || n.error == ""
  {
    if outcome.Succeeded? then Notice(ProfileSavedMessage, "") else Notice("", ProfileFailedMessage)
  }

  /** As written, a save the backend rejects is announced as a success: the promise
      of updateUserContext resolves, so the page's failure branch never runs, while
      the session itself has gone back to the previous account. */
  lemma RejectedSaveReportedAsSuccess(remote: Status)
    requires remote.Failed?
    ensures ProfileNotice(AuthContext.CompletionAsWritten(true, remote)) == Notice(ProfileSavedMessage, "")
    ensures AuthContext.Completion(true, remote).Failed?
  {
  }

  /** With the failure passed on, the page announces success exactly when the backend accepted the save. */
  lemma SaveNoticeMatchesBackend(remote: Status)
    ensures ProfileNotice(AuthContext.Completion(true, remote)).message == ProfileSavedMessage <==> remote.Succeeded?
    ensures ProfileNotice(AuthContext.Completion(true, remote)).error == ProfileFailedMessage <==> remote.Failed?
  {
  }

  /** The password form's checks, in the page's order: the length first, then the match. */
  function PasswordProblem(password: string, confirm: string): (p: Option<string>)
    ensures p.None? <==> |password| >= MinPasswordLength && password == confirm
    ensures |password| < MinPasswordLength ==> p == Some(TooShortMessage)
    ensures |password| >= MinPasswordLength && password != confirm ==> p == Some(MismatchMessage)
  {
    if |password| < MinPasswordLength then Some(TooShortMessage)
    else if password != confirm then Some(MismatchMessage)
    else None
  }

  /** The password-change request: the id and the new password, nothing else. */
  predicate ChangesPassword(req: ApiService.Request, id: string, password: string) {
    && req.endpoint == ApiService.UsersEndpoint
    && ApiService.Read(req.form) == ApiService.Nothing.(action := Some("update"), id := Some(id), password := Some(password))
  }

  /** The page's own state. */
  class ProfileForm {
    var name: string
    var avatar: string
    var password: string
    var confirmPassword: string
    var message: string
    var error: string
    var loading: bool

    /** The page's first render for the signed-in account; defaultAvatar is the first stock avatar. */
    constructor(current: Option<User>, defaultAvatar: string)
      ensures name == InitialName(current) && avatar == InitialAvatar(current, defaultAvatar)
      ensures password == "" && confirmPassword == "" && message == "" && error == "" && !loading
    {
      name := InitialName(current);
      avatar := InitialAvatar(current, defaultAvatar);
      password := "";
      confirmPassword := "";
      message := "";
      error := "";
      loading := false;
    }

    /** handleProfileUpdate, given updateUser's outcome: the titled name and the avatar
        go through updateUserContext, and the notice follows how its promise settles.
        Since that promise always resolves, a save the backend rejects leaves the
        previous account in place and still announces success. */
    method HandleProfileUpdate(auth: AuthContext.AuthStore, remote: Status, encode: Watched -> string)
      returns (sent: ApiService.Request)
      requires auth.currentUser.Some?
      modifies this, auth
      ensures var u := old(auth.currentUser).value;
        && ApiService.UpdatesUser(sent, u.id, ProfilePatch(u.id, old(name), old(avatar)), encode)
        && auth.currentUser == (if remote.Succeeded? then Some(Merge(u, ProfilePatch(u.id, old(name), old(avatar)))) else Some(u))
      ensures auth.Synced() && auth.loading == old(auth.loading)
      ensures Notice(message, error) == ProfileNotice(AuthContext.CompletionAsWritten(true, remote))
      ensures remote.Failed? ==>
                message == ProfileSavedMessage && error == "" && auth.currentUser == old(auth.currentUser)
      ensures !loading
      ensures name == old(name) && avatar == old(avatar)
      ensures password == old(password) && confirmPassword == old(confirmPassword)
    {
      error := "";
      message := "";
      loading := true;
      var u := auth.currentUser.value;
      var req, outcome := auth.UpdateUserContext(ProfilePatch(u.id, name, avatar), remote, encode);
      sent := req.value;
      var notice := ProfileNotice(outcome);
      message := notice.message;
      error := notice.error;
      loading := false;
    }

    /** handlePasswordChange for the signed-in account id, given updateUser's outcome:
        a rejected password sends nothing; an accepted one is sent alone, and the two
        fields are cleared once the backend has taken it. */
    method HandlePasswordChange(id: string, remote: Status) returns (sent: Option<ApiService.Request>)
      modifies this
      ensures name == old(name) && avatar == old(avatar)
      ensures PasswordProblem(old(password), old(confirmPassword)).Some? ==>
                && sent.None? && message == "" && error == PasswordProblem(old(password), old(confirmPassword)).value
                && password == old(password) && confirmPassword == old(confirmPassword) && loading == old(loading)
      ensures PasswordProblem(old(password), old(confirmPassword)).None? ==>
                && sent.Some? && ChangesPassword(sent.value, id, old(password)) && !loading
                && (remote.Succeeded? ==>
                      message == PasswordChangedMessage && error == "" && password == "" && confirmPassword == "")
                && (remote.Failed? ==>
                      message == "" && error == PasswordFailedMessage
                      && password == old(password) && confirmPassword == old(confirmPassword))
    {
      error := "";
      message := "";
      var problem := PasswordProblem(password, confirmPassword);
      if problem.Some? {
        error := problem.value;
        return None;
      }
      loading := true;
      var req := ApiService.UpdateUser(id, NoChanges.(id := Some(id), password := Some(password)), w => "");
      sent := Some(req);
      if remote.Succeeded? {
        message := PasswordChangedMessage;
        password := "";
        confirmPassword := "";
      } else {
        error := PasswordFailedMessage;
      }
      loading := false;
    }
  }
}

=== FILE: protected_route.dfy ===
/** The route guard: what a protected page shows for the session's state, and
    where the login page sends the user once signed in. */
module ProtectedRoute {
  import opened Basics
  import opened Types

  /** A router location; only its pathname is read back. */
  datatype Location = Location(pathname: string)

  /** What the guard renders: the waiting spinner, a redirect (with the location
      to come back to, when one is remembered), or the protected children. */
  datatype Decision = Waiting | Navigate(to: string, from: Option<Location>, replace: bool) | Render

  /** The guard's decision; roles is the optional list of roles the route admits. */
  function Guard(loading: bool, user: Option<User>, roles: Option<seq<Role>>, location: Location): (d: Decision)
    ensures d == Waiting <==> loading
    ensures !loading && user.None? ==> d == Navigate("/login", Some(location), true)
    ensures !loading && user.Some? && roles.Some? && user.value.role !in roles.value ==> d == Navigate("/", None, true)
    ensures d == Render <==> !loading && user.Some? && (roles.None? || user.value.role in roles.value)
    ensures d.Navigate? ==> d.replace
  {
    if loading then Waiting
    else if user.None? then Navigate("/login", Some(location), true)
    else if roles.Some? && user.value.role !in roles.value then Navigate("/", None, true)
    else Render
  }

  /** The login page's `from`: the remembered pathname, or "/" when none was remembered or it is empty. */
  function LoginDestination(from: Option<Location>): (to: string)
    ensures to != ""
    ensures from.Some? && from.value.pathname != "" ==> to == from.value.pathname
    ensures from.None? || from.value.pathname == "" ==> to == "/"
  {
    if from.Some? && from.value.pathname != "" then from.value.pathname else "/"
  }

  /** Turned away for want of a session, the user comes back, after signing in, to
      the page that was asked for. */
  lemma LoginReturnsToRequestedPage(roles: Option<seq<Role>>, location: Location)
    requires location.pathname != ""
    ensures var d := Guard(false, None, roles, location);
      d.Navigate? && d.to == "/login" && LoginDestination(d.from) == location.pathname
  {
  }

  /** The roles the admin dashboard's route admits. */
  const AdminRoles: Option<seq<Role>> := Some([Admin, SuperAdmin])

  /** On the admin route a standard account is sent home, while admins and super admins
      pass; this is the same test the header uses for the dashboard link. */
  lemma AdminRouteAdmitsAdmins(u: User, location: Location)
    ensures Guard(false, Some(u), AdminRoles, location) == Render <==> IsAdmin(Some(u))
    ensures u.role == Standard ==> Guard(false, Some(u), AdminRoles, location) == Navigate("/", None, true)
  {
  }

  /** An empty roles list admits nobody: it differs from giving no list at all. */
  lemma EmptyRolesAdmitNobody(u: User, location: Location)
    ensures Guard(false, Some(u), Some([]), location) == Navigate("/", None, true)
    ensures Guard(false, Some(u), None, location) == Render
  {
  }
}

=== FILE: sorting.dfy ===
/** Stable sorting by an integer key, the way the portal sorts its lists with
    `Array.prototype.sort` and a subtracting comparator: a functional insertion
    sort that serves as the specification, its properties, and the same
    algorithm run in place on an array. */
module Sorting {
  import opened Basics

  /** s is in ascending order of key. */
  ghost predicate SortedBy<T>(s: seq<T>, key: T -> int) {
    forall i, j :: 0 <= i < j < |s| ==> key(s[i]) <= key(s[j])
  }

  /** Places x after every element of s whose key is at most key(x), scanning from
      the right: one step of a stable insertion sort. */
  function Insert<T>(s: seq<T>, x: T, key: T -> int): (r: seq<T>)
    ensures |r| == |s| + 1
  {
    if s == [] || key(s[|s| - 1]) <= key(x) then s + [x]
    else Insert(s[..|s| - 1], x, key) + [s[|s| - 1]]
  }

  /** Stable sort of s by ascending key. */
  function SortBy<T>(s: seq<T>, key: T -> int): (r: seq<T>)
    ensures |r| == |s|
  {
    if s == [] then [] else Insert(SortBy(s[..|s| - 1], key), s[|s| - 1], key)
  }

  lemma {:induction false} InsertPermutation<T>(s: seq<T>, x: T, key: T -> int)
    ensures multiset(Insert(s, x, key)) == multiset(s) + multiset{x}
  {
    if s != [] && key(s[|s| - 1]) > key(x) {
      InsertPermutation(s[..|s| - 1], x, key);
      assert s == s[..|s| - 1] + [s[|s| - 1]];
    }
  }

  lemma {:induction false} InsertSorted<T>(s: seq<T>, x: T, key: T -> int)
    requires SortedBy(s, key)
    ensures SortedBy(Insert(s, x, key), key)
  {
    if s != [] && key(s[|s| - 1]) > key(x) {
      var init, last := s[..|s| - 1], s[|s| - 1];
      InsertSorted(init, x, key);
      InsertPermutation(init, x, key);
      var r := Insert(init, x, key);
      forall i | 0 <= i < |r|
        ensures key(r[i]) <= key(last)
      {
        assert r[i] in multiset(r);
        if r[i] != x {
          assert r[i] in multiset(init);
          var k :| 0 <= k < |init| && init[k] == r[i];
          assert s[k] == r[i];
        }
      }
    }
  }

  /** The sorted list holds the same elements, as often, as the input. */
  lemma {:induction false} SortByPermutation<T>(s: seq<T>, key: T -> int)
    ensures multiset(SortBy(s, key)) == multiset(s)
  {
    if s != [] {
      SortByPermutation(s[..|s| - 1], key);
      InsertPermutation(SortBy(s[..|s| - 1], key), s[|s| - 1], key);
      assert s == s[..|s| - 1] + [s[|s| - 1]];
    }
  }

  /** The sorted list is in ascending order of key. */
  lemma {:induction false} SortBySorted<T>(s: seq<T>, key: T -> int)
    ensures SortedBy(SortBy(s, key), key)
  {
    if s != [] {
      SortBySorted(s[..|s| - 1], key);
      InsertSorted(SortBy(s[..|s| - 1], key), s[|s| - 1], key);
    }
  }

  /** Sorting a list that is already in order leaves it as it is. */
  lemma {:induction false} SortByOfSorted<T>(s: seq<T>, key: T -> int)
    requires SortedBy(s, key)
    ensures SortBy(s, key) == s
  {
    if s != [] {
      var init := s[..|s| - 1];
      SortByOfSorted(init, key);
      assert s == init + [s[|s| - 1]];
    }
  }

  /** Sorting twice gives the same list as sorting once. */
  lemma SortByIdempotent<T>(s: seq<T>, key: T -> int)
    ensures SortBy(SortBy(s, key), key) == SortBy(s, key)
  {
    SortBySorted(s, key);
    SortByOfSorted(SortBy(s, key), key);
  }

  /** Filtering distributes over concatenation. */
  lemma {:induction false} FilterAppend<T>(a: seq<T>, b: seq<T>, p: T -> bool)
    ensures Filter(a + b, p) == Filter(a, p) + Filter(b, p)
  {
    if a != [] {
      FilterAppend(a[1..], b, p);
      assert (a + b)[0] == a[0] && (a + b)[1..] == a[1..] + b;
      FilterStep(a + b, p);
      FilterStep(a, p);
      if p(a[0]) {
        assert [a[0]] + (Filter(a[1..], p) + Filter(b, p)) == ([a[0]] + Filter(a[1..], p)) + Filter(b, p);
      }
    } else {
      assert a + b == b;
    }
  }

  /** Among the elements with one key, an insertion step puts x after all of them. */
  lemma {:induction false} InsertKeepsTies<T>(t: seq<T>, x: T, key: T -> int, p: T -> bool, k: int)
    requires forall y :: p(y) == (key(y) == k)
    ensures Filter(Insert(t, x, key), p) == Filter(t, p) + (if key(x) == k then [x] else [])
  {
    if t == [] || key(t[|t| - 1]) <= key(x) {
      FilterAppend(t, [x], p);
      FilterStep([x], p);
    } else {
      var init, last := t[..|t| - 1], t[|t| - 1];
      assert Insert(t, x, key) == Insert(init, x, key) + [last];
      InsertKeepsTies(init, x, key, p, k);
      FilterAppend(Insert(init, x, key), [last], p);
      FilterAppend(init, [last], p);
      assert t == init + [last];
      FilterStep([last], p);
      assert key(x) == k ==> !p(last);
    }
  }

  /** The sort is stable: the elements that share a key come out in the order they
      went in. */
  lemma {:induction false} SortByStable<T>(s: seq<T>, key: T -> int, k: int)
    ensures Filter(SortBy(s, key), y => key(y) == k) == Filter(s, y => key(y) == k)
  {
    if s != [] {
      var init, last := s[..|s| - 1], s[|s| - 1];
      var p := y => key(y) == k;
      assert SortBy(s, key) == Insert(SortBy(init, key), last, key);
      SortByStable(init, key, k);
      InsertKeepsTies(SortBy(init, key), last, key, p, k);
      FilterAppend(init, [last], p);
      FilterStep([last], p);
      assert s == init + [last];
    }
  }

  /** Insert places x straight after the longest prefix of t that ends in a key
      at most key(x): if every element from j on has a larger key, and the one
      before j (if any) does not, x lands at j. */
  lemma {:induction false} InsertAt<T>(t: seq<T>, x: T, key: T -> int, j: nat)
    requires j <= |t|
    requires j == 0 || key(t[j - 1]) <= key(x)
    requires forall k :: j <= k < |t| ==> key(t[k]) > key(x)
    ensures Insert(t, x, key) == t[..j] + [x] + t[j..]
  {
    if j < |t| {
      var init := t[..|t| - 1];
      assert init[..j] == t[..j];
      InsertAt(init, x, key, j);
      assert t[j..] == init[j..] + [t[|t| - 1]];
    } else {
      assert t[..j] == t;
    }
  }

  /** A sequence that agrees with t before j, holds x at j and t shifted by one
      after j is t with x inserted at j. */
  lemma Assemble<T>(s: seq<T>, t: seq<T>, x: T, j: nat)
    requires j <= |t| && |s| == |t| + 1 && s[j] == x
    requires forall k :: 0 <= k < j ==> s[k] == t[k]
    requires forall k :: j < k < |s| ==> s[k] == t[k - 1]
    ensures s == t[..j] + [x] + t[j..]
  {
  }

  /** Moves a[i] leftwards past the elements of a[..i] with a larger key: the
      in-place form of Insert. */
  method InsertInPlace<T>(a: array<T>, i: nat, key: T -> int)
    requires i < a.Length
    modifies a
    ensures a[..i + 1] == Insert(old(a[..i]), old(a[i]), key)
    ensures a[i + 1..] == old(a[i + 1..])
  {
    ghost var done := a[..i];
    var x := a[i];
    var j := i;
    while j > 0 && key(a[j - 1]) > key(x)
      invariant 0 <= j <= i
      invariant forall k :: 0 <= k < j ==> a[k] == done[k]
      invariant forall k :: j < k <= i ==> a[k] == done[k - 1]
      invariant forall k :: j <= k < i ==> key(done[k]) > key(x)
      invariant forall k :: i < k < a.Length ==> a[k] == old(a[k])
    {
      a[j] := a[j - 1];
      j := j - 1;
    }
    a[j] := x;
    Assemble(a[..i + 1], done, x, j);
    InsertAt(done, x, key, j);
  }

  /** Sorts a in place by ascending key, stably, by insertion. */
  method SortInPlace<T>(a: array<T>, key: T -> int)
    modifies a
    ensures a[..] == SortBy(old(a[..]), key)
  {
    ghost var input := a[..];
    var i := 0;
    while i < a.Length
      invariant 0 <= i <= a.Length
      invariant a[..i] == SortBy(input[..i], key)
      invariant a[i..] == input[i..]
    {
      ghost var prefix := input[..i + 1];
      assert prefix[..i] == input[..i] && prefix[i] == input[i] == a[i];
      assert SortBy(prefix, key) == Insert(SortBy(input[..i], key), input[i], key);
      InsertInPlace(a, i, key);
      assert a[i + 1..] == input[i + 1..];
      i := i + 1;
    }
    assert input[..a.Length] == input;
  }
}

=== FILE: subject_manager.dfy ===
/** The subject administration panel: reordering a subject by one place, which
    renumbers every subject to its new position and sends one update per subject,
    and the guard in front of adding a subject. */
module SubjectManager {
  import opened Basics
  import opened Types
  import ApiService

  datatype Direction = Up | Down

  /** The position a move exchanges with. */
  function Target(index: int, dir: Direction): int {
    if dir == Up then index - 1 else index + 1
  }

  /** s with the subjects at i and j exchanged. */
  function Swapped(s: seq<Subject>, i: nat, j: nat): (r: seq<Subject>)
    requires i < |s| && j < |s|
    ensures |r| == |s|
  {
    s[i := s[j]][j := s[i]]
  }

  /** Every subject numbered by its position. */
  function Renumbered(s: seq<Subject>): (r: seq<Subject>)
    ensures |r| == |s|
    ensures forall k :: 0 <= k < |r| ==> r[k] == s[k].(number := k)
  {
    seq(|s|, k requires 0 <= k < |s| => s[k].(number := k))
  }

  /** The order handleMove sends, or None when the move would leave the list. */
  function Reordered(s: seq<Subject>, index: nat, dir: Direction): (r: Option<seq<Subject>>)
    requires index < |s|
    ensures r.None? <==> Target(index, dir) < 0 || Target(index, dir) >= |s|
    ensures r.Some? ==> |r.value| == |s| && forall k :: 0 <= k < |s| ==> r.value[k].number == k
  {
    var target := Target(index, dir);
    if target < 0 || target >= |s| then None else Some(Renumbered(Swapped(s, index, target)))
  }

  /** The identity of a subject, which a move must keep: its id and its name. */
  function Identity(s: Subject): (string, string) {
    (s.id, s.subjectName)
  }

  function Identities(s: seq<Subject>): (r: seq<(string, string)>)
    ensures |r| == |s|
    ensures forall k :: 0 <= k < |s| ==> r[k] == Identity(s[k])
  {
    seq(|s|, k requires 0 <= k < |s| => Identity(s[k]))
  }

  /** Moving up from the top or down from the bottom does nothing. */
  lemma MoveAtEdgeIsNoOp(s: seq<Subject>)
    requires s != []
    ensures Reordered(s, 0, Up).None?
    ensures Reordered(s, |s| - 1, Down).None?
  {
  }

  /** A move within the list exchanges exactly the two positions, renumbers every
      subject to its position, and keeps every id and name. */
  lemma MoveExchanges(s: seq<Subject>, index: nat, dir: Direction)
    requires index < |s|
    requires 0 <= Target(index, dir) < |s|
    ensures var r := Reordered(s, index, dir);
      && r.Some? && |r.value| == |s|
      && Identity(r.value[index]) == Identity(s[Target(index, dir)])
      && Identity(r.value[Target(index, dir)]) == Identity(s[index])
      && (forall k :: 0 <= k < |s| && k != index && k != Target(index, dir) ==> Identity(r.value[k]) == Identity(s[k]))
      && (forall k :: 0 <= k < |s| ==> r.value[k].number == k)
  {
  }

  /** After a move the numbers are exactly 0..n-1: distinct, and one per position. */
  lemma MoveNumbersDistinct(s: seq<Subject>, index: nat, dir: Direction)
    requires index < |s| && Reordered(s, index, dir).Some?
    ensures var r := Reordered(s, index, dir).value;
      forall i, j :: 0 <= i < j < |r| ==> r[i].number != r[j].number
  {
  }

  /** A move only reorders: the same ids and names occur, as often, as before. */
  lemma {:induction false} MoveKeepsSubjects(s: seq<Subject>, index: nat, dir: Direction)
    requires index < |s| && Reordered(s, index, dir).Some?
    ensures multiset(Identities(Reordered(s, index, dir).value)) == multiset(Identities(s))
  {
    var j := Target(index, dir);
    var w := Swapped(s, index, j);
    var r := Renumbered(w);
    assert Identities(r) == Identities(w);
    assert Identities(w) == Identities(s)[index := Identity(s[j])][j := Identity(s[index])];
    SwapKeepsMultiset(Identities(s), index, j);
  }

  lemma SwapKeepsMultiset<T>(t: seq<T>, i: nat, j: nat)
    requires i < |t| && j < |t|
    ensures multiset(t[i := t[j]][j := t[i]]) == multiset(t)
  {
    if i != j {
      var u := t[i := t[j]];
      assert multiset(u) == multiset(t) - multiset{t[i]} + multiset{t[j]};
      assert u[j] == t[j];
    }
  }

  /** Moving a subject up and then moving it back down restores the order, numbered
      by position; a list already numbered by position comes back unchanged. */
  lemma {:induction false} UpThenDownRestores(s: seq<Subject>, index: nat)
    requires 0 < index < |s|
    ensures var once := Reordered(s, index, Up);
      && once.Some?
      && Reordered(once.value, index - 1, Down) == Some(Renumbered(s))
    ensures (forall k :: 0 <= k < |s| ==> s[k].number == k) ==>
      Reordered(Reordered(s, index, Up).value, index - 1, Down) == Some(s)
  {
    var once := Renumbered(Swapped(s, index, index - 1));
    var twice := Renumbered(Swapped(once, index - 1, index));
    assert forall k :: 0 <= k < |s| ==> twice[k] == s[k].(number := k);
    assert twice == Renumbered(s);
    if forall k :: 0 <= k < |s| ==> s[k].number == k {
      assert forall k :: 0 <= k < |s| ==> s[k].(number := k) == s[k];
      assert Renumbered(s) == s;
    }
  }

  /** handleMove, given the joint outcome of the update calls: copies the list, swaps
      the two slots in place, and sends one updateSubject per subject, each carrying
      the subject's new position; the data is refreshed only if every update succeeds. */
  method HandleMove(subjects: seq<Subject>, index: nat, dir: Direction, updates: Status)
    returns (sent: seq<ApiService.Request>, refresh: bool)
    requires index < |subjects|
    ensures Reordered(subjects, index, dir).None? ==> sent == [] && !refresh
    ensures Reordered(subjects, index, dir).Some? ==>
              && |sent| == |subjects|
              && (forall k :: 0 <= k < |sent| ==>
                    ApiService.UpdatesSubject(sent[k], Reordered(subjects, index, dir).value[k]))
              && refresh == updates.Succeeded?
  {
    var target := Target(index, dir);
    if target < 0 || target >= |subjects| {
      return [], false;
    }
    var a := new Subject[|subjects|](i requires 0 <= i < |subjects| => subjects[i]);
    a[index], a[target] := a[target], a[index];
    ghost var order := Renumbered(Swapped(subjects, index, target));
    assert forall k :: 0 <= k < a.Length ==> order[k] == a[k].(number := k);
    sent := [];
    var i := 0;
    while i < a.Length
      invariant 0 <= i <= a.Length
      invariant |sent| == i
      invariant forall k :: 0 <= k < a.Length ==> order[k] == a[k].(number := k)
      invariant forall k :: 0 <= k < i ==> ApiService.UpdatesSubject(sent[k], order[k])
    {
      var req := ApiService.UpdateSubject(a[i].(number := i));
      sent := sent + [req];
      i := i + 1;
    }
    refresh := updates.Succeeded?;
  }

  /** The add button's guard: a name that trims to nothing is not sent. */
  predicate CanAdd(name: string) {
    Trim(name) != ""
  }

  /** The guard refuses exactly the empty and the whitespace-only names. */
  lemma CanAddIffNotBlank(name: string)
    ensures CanAdd(name) <==> !AllWhitespace(name)
  {
    TrimEmptyIffBlank(name);
  }

  /** The panel's own state: the text of the new-subject field. */
  class SubjectForm {
    var newSubjectName: string

    constructor()
      ensures newSubjectName == ""
    {
      newSubjectName := "";
    }

    /** handleAddSubject, given addSubject's outcome: the name is sent as typed, not
        trimmed, and the field is cleared once it has been added and the data refreshed. */
    method HandleAddSubject(added: Status) returns (sent: Option<ApiService.Request>, refresh: bool)
      modifies this
      ensures !CanAdd(old(newSubjectName)) ==> sent.None? && !refresh && newSubjectName == old(newSubjectName)
      ensures CanAdd(old(newSubjectName)) ==>
                && sent.Some? && sent.value.endpoint == ApiService.SubjectsEndpoint
                && ApiService.Read(sent.value.form)
                     == ApiService.Nothing.(action := Some("create"), subjectName := Some(old(newSubjectName)))
                && refresh == added.Succeeded?
                && newSubjectName == (if added.Succeeded? then "" else old(newSubjectName))
    {
      if !CanAdd(newSubjectName) {
        return None, false;
      }
      var req := ApiService.AddSubject(newSubjectName);
      sent := Some(req);
      refresh := added.Succeeded?;
      if added.Succeeded? {
        newSubjectName := "";
      }
    }
  }
}

=== FILE: types.dfy ===
/** The portal's records: accounts, subjects and lecture resources, the partial
    account record used for updates, and the role predicates the views use. */
module Types {
  import opened Basics

  /** Account roles; the backend spells them "user", "admin" and "super_admin". */
  datatype Role = Standard | Admin | SuperAdmin

  function RoleName(r: Role): string {
    match r
    case Standard => "user"
    case Admin => "admin"
    case SuperAdmin => "super_admin"
  }

  /** One entry of an account's watch-progress record: a resource id and the progress stored for it. */
  datatype WatchEntry = WatchEntry(resourceId: string, progress: int)

  /** The watch-progress record, in the order its keys are enumerated. */
  type Watched = seq<WatchEntry>

  /** An account. The password is present on records fetched from the backend and
      absent on the copy kept as the session. */
  datatype User = User(
    id: string,
    name: string,
    email: string,
    password: Option<string>,
    role: Role,
    avatar: string,
    watched: Watched)

  /** A subject; `number` is its ordering key. */
  datatype Subject = Subject(id: string, subjectName: string, number: int)

  /** A lecture; `subjectName` refers to a subject by display name, not by id. */
  datatype Resource = Resource(
    id: string,
    title: string,
    subjectName: string,
    videoLink: string,
    pdfLink: string,
    imageUrl: string)

  /** A partial account record: None marks a field that is not given. */
  datatype UserPatch = UserPatch(
    id: Option<string>,
    name: Option<string>,
    email: Option<string>,
    password: Option<string>,
    role: Option<Role>,
    avatar: Option<string>,
    watched: Option<Watched>)

  const NoChanges := UserPatch(None, None, None, None, None, None, None)

  /** `{ ...u, ...p }`: every field p gives overrides the one in u. */
  function Merge(u: User, p: UserPatch): (r: User)
    ensures p == NoChanges ==> r == u
    ensures p.id.Some? && p.name.Some? && p.email.Some? && p.password.Some? && p.role.Some?
            && p.avatar.Some? && p.watched.Some? ==>
              r == User(p.id.value, p.name.value, p.email.value, p.password, p.role.value, p.avatar.value, p.watched.value)
    ensures r.password.None? <==> p.password.None? && u.password.None?
  {
    User(
      p.id.GetOr(u.id),
      p.name.GetOr(u.name),
      p.email.GetOr(u.email),
      if p.password.Some? then p.password else u.password,
      p.role.GetOr(u.role),
      p.avatar.GetOr(u.avatar),
      p.watched.GetOr(u.watched))
  }

  /** A copy of u with the password deleted. */
  function WithoutPassword(u: User): (r: User)
    ensures r.password.None?
    ensures r.(password := u.password) == u
  {
    u.(password := None)
  }

  /** Merging gives every field the patch gives its new value and keeps every other field, and merging the same patch again changes nothing more. */
  lemma MergeProperties(u: User, p: UserPatch)
    ensures Merge(u, NoChanges) == u
    ensures Merge(Merge(u, p), p) == Merge(u, p)
    ensures p.id.None? ==> Merge(u, p).id == u.id
    ensures p.id.Some? ==> Merge(u, p).id == p.id.value
    ensures p.name.None? ==> Merge(u, p).name == u.name
    ensures p.name.Some? ==> Merge(u, p).name == p.name.value
    ensures p.email.None? ==> Merge(u, p).email == u.email
    ensures p.email.Some? ==> Merge(u, p).email == p.email.value
    ensures p.password.None? ==> Merge(u, p).password == u.password
    ensures p.password.Some? ==> Merge(u, p).password == p.password
    ensures p.role.None? ==> Merge(u, p).role == u.role
    ensures p.role.Some? ==> Merge(u, p).role == p.role.value
    ensures p.avatar.None? ==> Merge(u, p).avatar == u.avatar
    ensures p.avatar.Some? ==> Merge(u, p).avatar == p.avatar.value
    ensures p.watched.None? ==> Merge(u, p).watched == u.watched
    ensures p.watched.Some? ==> Merge(u, p).watched == p.watched.value
    ensures Merge(u, p).password.None? <==> p.password.None? && u.password.None?
  {
  }

  /** The header's test for the admin dashboard link. */
  predicate IsAdmin(u: Option<User>) {
    u.Some? && (u.value.role == Admin || u.value.role == SuperAdmin)
  }
}
